=== FILE: README.md ===
# DB train tracker: the gathering pipeline in Dafny

This project models the data side of the Home Assistant "DB train tracker"
integration. The integration reads travel appointments out of calendar
entries, asks a Deutsche Bahn schedule source for connections, and reports
the first trip with its connection and the next one.

The model covers:

- **Connection records** (`TravelInformation`, module `Travel`). `from_dict`
  fills in defaults and requires products. `time_timedelta` reads the
  duration. `departure_dt` / `arrival_dt` resolve an "HH:MM" text against
  the instant the search was made for (module `Clock`).
- **Trip extraction** (module `Extraction`). Expressions are tried in order
  on an entry's summary. The named `origin` / `destination` groups are read,
  with their fallbacks. Station names are rewritten through the configured
  mappings. Only entries whose start and end are both date-times become
  trips.
- **Per-trip connections** (modules `Dedup` and `Gatherer`). Records are
  read, and those leaving before the planned start are dropped. Optionally
  they are deduplicated by their (departure, arrival) pair: the first live
  member of each group is kept, and the survivors are sorted by departure.
  The list is then cut to `max_results`.
- **Orchestration** (module `Gatherer`). Unavailable calendars are skipped.
  Entries are sorted by start, with whole-day entries read as local
  midnight. Every trip is resolved in that order.
- **Result accessors** (module `Results`). `PossibleTravelTimes` and
  `GathererResult`, each property with its fallback when a trip or
  connection is missing.
- **Options form strings** (module `ConfigFlow`). The mapping and expression
  validators, and the re-serialisation the options form shows stored values
  in.
- **Whole runs**. The repository's three `collect` tests, stated as
  lemmas: the two with a trip in module `Scenarios`, and the one without
  events as `Gatherer.NothingPlanned`.

Supporting modules:

- `Wrappers`: `Option` and `Result`.
- `Text`: Python's `strip`, `split`, `join` and `int`.
- `Seqs`: list-comprehension filtering, the `[:n]` slice, and the stable
  `sorted`.

Everything outside the component is a parameter of the model:

- the current time `now`;
- the expression engine: a matcher oracle from pattern and summary to an
  optional match, and a prefix-match oracle for mapping patterns;
- the calendar states and events (`Host`);
- the schedule source's answer (`Host.connections`).

Python exceptions that escape a run become `GatherError` values:

- `KeyError` for a record without products;
- `ValueError` for an unreadable time;
- `IndexError` for a match without groups;
- `AttributeError` for a missing destination text.

## Model

| member | source | states |
|---|---|---|
| Clock.Truncate | custom_components/db_train_tracker/data_gatherer.py:248 | dropping seconds keeps the day and minute and moves back by less than a minute |
| Clock.Midnight | custom_components/db_train_tracker/data_gatherer.py:474 | a date is read as the first instant of that day |
| Clock.ParseClock | custom_components/db_train_tracker/data_gatherer.py:249 | a text reads as a minute of the day (0 to 1439) only when its colon follows one or two leading hour characters |
| Clock.ParseFormatClock | custom_components/db_train_tracker/data_gatherer.py:249 | every zero-padded "HH:MM" reads back as the minute it was written from |
| Clock.ParseShortClock | custom_components/db_train_tracker/data_gatherer.py:249 | one-digit fields are accepted; hour 24 and a three-digit minute are refused |
| Clock.NormalizeAsWritten | custom_components/db_train_tracker/data_gatherer.py:247-258 | the code as written: keeps the parsed hour and minute, lands on the reference day or the next, and on the next day exactly when (clock + allowance) mod 24h is before the reference time of day |
| Clock.Normalize | custom_components/db_train_tracker/data_gatherer.py:247-258 | the corrected reading, proved beside the code's own (which `departure_dt` and `arrival_dt` keep): same parsed time, never earlier than the reference less the allowance, and on the next day only when the same-day reading would be earlier than that |
| Clock.NormalizeAgreesBeforeMidnight | custom_components/db_train_tracker/data_gatherer.py:252-257 | the two readings agree whenever the clock time plus the allowance stays before midnight |
| Clock.NormalizeNotBeforeReference | custom_components/db_train_tracker/data_gatherer.py:248-257 | when now is not past the reference, no resolved time lies before the truncated reference, under either reading |
| Clock.AsWrittenWrapsPastMidnight | custom_components/db_train_tracker/data_gatherer.py:252-257 | with a 23:50 reference and the current time past it, the code as written moves a "23:30" departure to the next day, while the corrected reading keeps it on the reference day, inside the allowance |
| Travel.FromDict | custom_components/db_train_tracker/data_gatherer.py:279-293 | reading fails exactly when "products" is missing, and keeps the reference time and the products |
| Travel.FromDictToRaw | custom_components/db_train_tracker/data_gatherer.py:279-293 | a record with every key present reads back as the connection it was written from |
| Travel.FromDictDefaults | custom_components/db_train_tracker/data_gatherer.py:281-292 | a record with only products reads as departure, arrival and time "00:00", on time, not cancelled, no delays, no transfers, price or link |
| Travel.DepartureDt | custom_components/db_train_tracker/data_gatherer.py:260-262 | the departure resolves exactly when its text reads as a clock time, to that minute with no seconds, on the reference day or the day after |
| Travel.ArrivalDt | custom_components/db_train_tracker/data_gatherer.py:264-266 | the arrival resolves exactly when its text reads as a clock time, to that minute with no seconds, on the reference day or the day after |
| Travel.TimeTimedelta | custom_components/db_train_tracker/data_gatherer.py:269-276 | the duration reads exactly when the text before the first ":" reads as an integer and, if there is a second piece, so does it; without a ":" the text is a number of hours |
| Travel.TimeTimedeltaOfParts | custom_components/db_train_tracker/data_gatherer.py:269-276 | "H:M" with two integer fields is H hours and M minutes |
| Travel.TimeTimedeltaOfFormat | custom_components/db_train_tracker/data_gatherer.py:269-276 | a duration written "H:MM" reads back as the same number of minutes |
| Travel.TimeTimedeltaOfHours | custom_components/db_train_tracker/data_gatherer.py:269-276 | a bare "H" reads as H whole hours |
| Travel.DefaultDepartureResolves | custom_components/db_train_tracker/data_gatherer.py:247-264 | the default departure "00:00" resolves to midnight, on the reference day or the next one as the allowance decides |
| Extraction.ForceConvert | custom_components/db_train_tracker/data_gatherer.py:471-474 | a date-time is kept as it is; a date becomes an instant of that day no later than any other instant of the day |
| Extraction.ForceConvertOrder | custom_components/db_train_tracker/data_gatherer.py:471-474 | a whole-day entry sorts before every timed entry of its day, after those of earlier days and before those of later days |
| Extraction.FirstMapping | custom_components/db_train_tracker/data_gatherer.py:465-467 | finds the first mapping whose pattern matches, and no earlier one matches |
| Extraction.ConvertDestination | custom_components/db_train_tracker/data_gatherer.py:463-468 | the replacement of the first matching mapping for the stripped name, else the stripped name |
| Extraction.ConvertWithoutMappings | custom_components/db_train_tracker/data_gatherer.py:463-468 | without mappings a name is only stripped, and converting again changes nothing |
| Extraction.TripFrom | custom_components/db_train_tracker/data_gatherer.py:513-527 | a matching expression raises exactly when the destination group is not given and there are no groups (`IndexError`) or, for a timed entry, the last group took no part (`AttributeError`); otherwise it yields a trip exactly for a timed entry, with the entry's start and end, the given origin group or else the configured origin, and the given destination group or else the last group, both rewritten through the mappings |
| Extraction.FirstMatch | custom_components/db_train_tracker/data_gatherer.py:511-512 | the first expression whose match succeeds, with none before it |
| Extraction.ExtractFrom | custom_components/db_train_tracker/data_gatherer.py:510-527 | a timed entry gives what its first matching expression gives (no trip when none matches); a whole-day entry never gives a trip, and fails exactly when some matching expression has no destination text to fall back on |
| Extraction.TimedEntryTrip | custom_components/db_train_tracker/data_gatherer.py:510-527 | a trip comes from the first matching expression, with the entry's start and end and the converted origin and destination; no trip exactly when no expression matches |
| Extraction.DateEntryNoTrip | custom_components/db_train_tracker/data_gatherer.py:518-527 | an entry with a whole-day start or end yields no trip |
| Gatherer.EntriesOf | custom_components/db_train_tracker/data_gatherer.py:503-505 | one calendar entry per event, in order, tagged with its calendar |
| Gatherer.Gathered | custom_components/db_train_tracker/data_gatherer.py:484-505 | every gathered entry comes from a configured, available calendar |
| Gatherer.GatheredConcat | custom_components/db_train_tracker/data_gatherer.py:484-505 | the entries of a list of calendars are those of its first part followed by those of the rest |
| Gatherer.GatheredOne | custom_components/db_train_tracker/data_gatherer.py:486-505 | an available calendar contributes exactly its events, in order; an unavailable one contributes nothing |
| Gatherer.GatheredComplete | custom_components/db_train_tracker/data_gatherer.py:484-505 | every event of every configured, available calendar is gathered |
| Gatherer.CalendarEntries | custom_components/db_train_tracker/data_gatherer.py:482-506 | the entries come out sorted by start and are a permutation of the gathered ones |
| Gatherer.CalendarEntriesSpec | custom_components/db_train_tracker/data_gatherer.py:482-506 | entries come out sorted by start (dates read as midnight), are exactly the gathered ones, and keep their gathered order among equal starts |
| Gatherer.UnavailableSkipped | custom_components/db_train_tracker/data_gatherer.py:488-490 | calendars that are missing, unavailable or have no events contribute nothing |
| Gatherer.PlannedTravelTimes | custom_components/db_train_tracker/data_gatherer.py:508-528 | at most one trip per entry, each starting and ending with a timed entry; a failure is the error of the first entry whose reading fails, every earlier entry having read |
| Gatherer.PlannedIndices | custom_components/db_train_tracker/data_gatherer.py:508-528 | the trips are, in entry order, exactly what the entries that yield a trip yield: every entry is read without error, and an entry contributes its trip exactly when it yields one |
| Gatherer.TripOfTimedEntry | custom_components/db_train_tracker/data_gatherer.py:518-527 | an entry that yields a trip is timed, and the trip has its start and end |
| Gatherer.PlannedTripsSorted | custom_components/db_train_tracker/data_gatherer.py:508-528 | trips read from entries sorted by start are sorted by start |
| Gatherer.DateEntriesNoTrips | custom_components/db_train_tracker/data_gatherer.py:518 | entries that are all whole-day yield no trip |
| Gatherer.FromDicts | custom_components/db_train_tracker/data_gatherer.py:561 | reading all records fails exactly when one lacks products; otherwise one connection per record, each bound to the trip's start |
| Gatherer.KeepFromStart | custom_components/db_train_tracker/data_gatherer.py:564 | fails exactly when a departure does not read; otherwise it is the filter of the connections leaving at or after the start |
| Gatherer.KeptLeave | custom_components/db_train_tracker/data_gatherer.py:564 | every kept connection leaves at or after the start and comes from the input |
| Gatherer.TravelTimesOf | custom_components/db_train_tracker/data_gatherer.py:549-574 | the trip is kept; the connections are the first `min(max_results, n)` of the n filtered (and deduplicated) candidates; a negative `max_results` drops that many from the end, as `[:max_results]` does |
| Gatherer.Candidates | custom_components/db_train_tracker/data_gatherer.py:561-566 | a record without products fails with `KeyError`, and any failure is that or an unreadable time; without deduplication it succeeds exactly when all records read and all departures resolve, and is then the filter of the records leaving at or after the planned start |
| Gatherer.CandidatesLeave | custom_components/db_train_tracker/data_gatherer.py:561-566 | every candidate leaves at or after the planned start and was read for the trip |
| Gatherer.TravelTimesFromStart | custom_components/db_train_tracker/data_gatherer.py:561-574 | every reported connection leaves at or after the planned start |
| Gatherer.TravelTimesKeepOrder | custom_components/db_train_tracker/data_gatherer.py:561-574 | without deduplication the reported connections keep the schedule source's order |
| Gatherer.CandidatesDeduplicated | custom_components/db_train_tracker/data_gatherer.py:565-566 | deduplicated candidates have distinct (departure, arrival) pairs and are sorted by departure |
| Gatherer.TravelTimesDeduplicated | custom_components/db_train_tracker/data_gatherer.py:565-574 | with deduplication the reported connections have distinct pairs and ascending departures |
| Gatherer.ResolveAll | custom_components/db_train_tracker/data_gatherer.py:578 | one result per trip, in order, each the trip's own connections; a failure is the error of the first trip whose connections fail, every earlier trip having resolved |
| Gatherer.Collect | custom_components/db_train_tracker/data_gatherer.py:576-580 | a failure reading the trips is the run's failure; a successful run has one result per planned trip, in order, each that trip with its own connections; a failure after reading the trips is the error of the first trip whose connections fail |
| Gatherer.CollectSpec | custom_components/db_train_tracker/data_gatherer.py:576-580 | a run reports trips in order of planned start, each with at most `max_results` connections, all leaving at or after its start; with a non-negative `max_results` each trip reports exactly `min(max_results, n)` connections, n being its number of candidates |
| Gatherer.NothingPlanned | tests/test_data_gatherer.py:138-152 | with no events in any available calendar the run reports that no trip exists |
| Dedup.DistinctKeys | custom_components/db_train_tracker/data_gatherer.py:534-538 | the grouping keys, each once, and exactly the keys present |
| Dedup.FirstSeen | custom_components/db_train_tracker/data_gatherer.py:534-538 | the first position holding a key: it holds the key and no earlier one does |
| Dedup.DistinctKeysFirstSeen | custom_components/db_train_tracker/data_gatherer.py:534-538 | the keys come in the order of their first occurrence in the input, as the insertion order of the grouping dict keeps them |
| Dedup.FirstEligible | custom_components/db_train_tracker/data_gatherer.py:541 | the first member with the key (and live, when asked), none before it |
| Dedup.Pick | custom_components/db_train_tracker/data_gatherer.py:540-545 | the representative of a key is a member with that key |
| Dedup.PickChosen | custom_components/db_train_tracker/data_gatherer.py:540-545 | the representative is the first live member of its group, or the group's first member when all are cancelled |
| Dedup.Representatives | custom_components/db_train_tracker/data_gatherer.py:540-545 | one representative per key, in key order |
| Dedup.DedupCore | custom_components/db_train_tracker/data_gatherer.py:530-547 | survivors have distinct keys, are sorted by departure, and are no more than the input |
| Dedup.DedupCoreChosen | custom_components/db_train_tracker/data_gatherer.py:540-547 | each survivor is the member its group chooses |
| Dedup.DedupCoreCovers | custom_components/db_train_tracker/data_gatherer.py:534-547 | every key of the input has a survivor |
| Dedup.Stamp | custom_components/db_train_tracker/data_gatherer.py:536 | resolves every departure and arrival, failing exactly when one does not read |
| Dedup.Deduplicate | custom_components/db_train_tracker/data_gatherer.py:530-547 | fails exactly when some time does not read; otherwise no more connections than given |
| Dedup.DeduplicateChooses | custom_components/db_train_tracker/data_gatherer.py:540-545 | every survivor is the first live connection of its (departure, arrival) group, or the group's first when all are cancelled |
| Dedup.DeduplicateDistinctSorted | custom_components/db_train_tracker/data_gatherer.py:530-547 | survivors have readable times, distinct (departure, arrival) pairs and ascending departures |
| Dedup.DeduplicateCovers | custom_components/db_train_tracker/data_gatherer.py:534-545 | every (departure, arrival) pair of the input is kept by some survivor |
| Dedup.DeduplicateMembers | custom_components/db_train_tracker/data_gatherer.py:540-545 | every survivor is one of the input connections |
| Results.SlotReadsConnection | custom_components/db_train_tracker/data_gatherer.py:94-214 | a property whose connection exists reports that connection's value |
| Results.MissingSlotReadsAsDefaults | custom_components/db_train_tracker/data_gatherer.py:94-214 | a property without its connection reports "00:00", no delay, on time, not cancelled, no products, and 0 transfers |
| Results.StartEndOfFirst | custom_components/db_train_tracker/data_gatherer.py:80-117 | `start`/`end` are the first connection's resolved times, or the planned times when there is no connection |
| Results.NextStartEnd | custom_components/db_train_tracker/data_gatherer.py:87-123 | `next_start`/`next_end` are `None` exactly when there are fewer than two connections, else the second connection's times |
| Results.EmptyResultDefaults | custom_components/db_train_tracker/data_gatherer.py:311-460 | a run without trips does not exist and reports no stations, times or texts, no delay, no products, on time and not cancelled |
| Results.ResultShowsFirstTrip | custom_components/db_train_tracker/data_gatherer.py:311-460 | a run with trips reports the first trip in every property; `next_connection` exists exactly when there are at least two trips |
| ConfigFlow.MappingOf | custom_components/db_train_tracker/config_flow.py:47-51 | a segment is a mapping exactly when its stripped text splits into two ","-items, which come out stripped and comma-free |
| ConfigFlow.MappingsOf | custom_components/db_train_tracker/config_flow.py:46-53 | fails with `mapping_format` exactly when some segment is not a mapping; otherwise one pair per segment, in order |
| ConfigFlow.ValidateMappings | custom_components/db_train_tracker/config_flow.py:43-53 | the empty field gives no mappings; any failure is `mapping_format`; every pair is stripped |
| ConfigFlow.ValidateMappingsSegments | custom_components/db_train_tracker/config_flow.py:46-53 | on success there is one pair per ";"-segment, in order |
| ConfigFlow.TrailingSeparatorRejected | custom_components/db_train_tracker/config_flow.py:46-50 | a trailing ";" leaves an empty segment, which is refused |
| ConfigFlow.MappingNeedsOneComma | custom_components/db_train_tracker/config_flow.py:47-50 | a segment is a mapping exactly when it holds one comma; none, or two and more, are refused |
| ConfigFlow.MappingsOfCommas | custom_components/db_train_tracker/config_flow.py:46-53 | a list of segments reads exactly when every segment holds one comma |
| ConfigFlow.ValidateMappingsCommas | custom_components/db_train_tracker/config_flow.py:43-53 | a non-empty mapping field is accepted exactly when every ";"-segment holds one comma |
| ConfigFlow.ValidateExpressions | custom_components/db_train_tracker/config_flow.py:56-59 | the empty field is refused with `expressions_empty`; otherwise one stripped item per ";"-segment, in order |
| ConfigFlow.MappingsRoundTrip | custom_components/db_train_tracker/config_flow.py:77-82 | stored mappings, joined as the options form shows them, validate back to the same mappings |
| ConfigFlow.ExpressionsRoundTrip | custom_components/db_train_tracker/config_flow.py:77-80 | stored expressions without ";" or surrounding space, joined as the form shows them, validate back to themselves |
| ConfigFlow.EmptyExpressionsRefused | custom_components/db_train_tracker/config_flow.py:56-58 | an empty list, or a list of one empty expression, does not survive the form |
| ConfigFlow.DefaultExpressionsPlain | custom_components/db_train_tracker/const.py:15-21 | the default expressions carry no ";" and no surrounding space |
| ConfigFlow.DefaultExpressionsRoundTrip | custom_components/db_train_tracker/const.py:15-22 | the joined default expressions validate back to the defaults |
| ConfigFlow.Characters | custom_components/db_train_tracker/config_flow.py:79-82 | iterating over a text gives one single-character item per character, in order |
| ConfigFlow.EnteredExpressionsGarbled | custom_components/db_train_tracker/config_flow.py:79-80 | as written, after the options form saved expressions as text, the reopened field reads back with a first expression of at most one character, so not as entered |
| ConfigFlow.EnteredMappingsGarbled | custom_components/db_train_tracker/config_flow.py:81-82 | as written, after the options form saved mappings as text, the reopened field no longer validates |
| ConfigFlow.MenuExpressionsRoundTrip | custom_components/db_train_tracker/config_flow.py:77-80 | corrected: the expression field validates back to the defaults when nothing is stored, to a plain stored list, or as the entered text does |
| ConfigFlow.MenuMappingsRoundTrip | custom_components/db_train_tracker/config_flow.py:77-82 | corrected: the mapping field validates to no mappings when nothing is stored, to a plain stored list, or as the entered text does |
| Scenarios.ArrowSummary | tests/test_data_gatherer.py:9-70 | "Berlin Hbf → Hamburg Hbf" with two connections reports that trip, 18:14–20:20 first and 18:20–21:20 next |
| Scenarios.DestinationOnlySummary | tests/test_data_gatherer.py:73-135 | "Train travel to Düsseldorf Hbf" reports a trip from the home station with the same two connections |
| Seqs.Filter | custom_components/db_train_tracker/data_gatherer.py:564 | the kept elements pass the test, each as often as in the input, in input order |
| Seqs.Prefix | custom_components/db_train_tracker/data_gatherer.py:569-570 | Python's `[:n]`, negative `n` included: a prefix of the stated length |
| Seqs.SortBy | custom_components/db_train_tracker/data_gatherer.py:506 | `sorted` is ascending, a permutation, and stable |
| Text.StripPadded | custom_components/db_train_tracker/data_gatherer.py:464 | `str.strip` removes exactly the white space around a non-empty text that has none at its ends |
| Text.StripIdempotent | custom_components/db_train_tracker/config_flow.py:51 | stripping twice is stripping once |
| Text.Split | custom_components/db_train_tracker/config_flow.py:46-47 | `str.split` gives at least one piece, none containing the separator, and joining the pieces gives the text back |
| Text.SplitJoin | custom_components/db_train_tracker/config_flow.py:46-47 | splitting undoes joining when no piece contains the separator |
| Text.ParseIntOfNat | custom_components/db_train_tracker/data_gatherer.py:271-274 | `int()` reads back the decimal text of every natural number |

## Left out

- The expression engine: `get_compiled_expressions` compiles with `IGNORECASE | UNICODE`, and matching is an oracle from pattern and summary to an optional match. The mapping patterns are likewise a prefix-match oracle.
- Time zones, daylight saving and `dt.as_local`: instants are local (day, minute, microsecond), and calendar date-times arrive already parsed.
- The clock: `dt.now()` is read on every normalisation, while the model takes one `now` per run.
- I/O and concurrency: the Home Assistant state and service calls, the executor job and the Deutsche Bahn client are the `Host` parameter. Logging is left out.
- `sensor.py` and `__init__.py`: entity state and attributes, set-up and the update listener are not part of this model.
- The `to_dict` methods and `scan_duration_dict`: they only feed the entity attributes and the calendar request. `scanDurationHours` is carried but not used.
- The options form beyond its two text fields: schema building, calendar and integer fields, and `_validate_station` (a network lookup).
- Clock.ParseClock: only ASCII digits are accepted; the other Unicode decimal digits that `%H` and `%M` also match are not modelled.
- Travel.FromDict: `price` is read as optional text, because the model has no floating point (the records in the tests carry a float).
- Text.ParseIntOfNat: `int()` is modelled for ASCII digits with optional sign and surrounding space; underscores and non-ASCII digits are not modelled.
- Gatherer.EntriesOf: a calendar's events are read through the host, so the `KeyError` of a response without the calendar's key cannot occur.
- Dedup.DeduplicateDistinctSorted: among survivors with the same departure and different arrivals, the first-seen group order the stable sort keeps is stated only for `Seqs.SortBy`, not restated here.
- ConfigFlow.ExpressionsRoundTrip: it requires a non-empty joined text, because `[]` and `[""]` join to "" and are refused (`ConfigFlow.EmptyExpressionsRefused`).
- Results: every `next_*` property is its unprefixed property at `Which.Next`, so the pairs are one member with a selector.
- Line 256's `and new_reference.time()` in `_normalize_time_string` is always true (a `datetime.time` is truthy, midnight included), so it does not appear.

## Findings

| source | as written | input that shows it | evidently intended | confidence | as-written member | corrected member |
|---|---|---|---|---|---|---|
| custom_components/db_train_tracker/data_gatherer.py:252-257 | the one-hour allowance is added to the departure and compared by time of day only, so it wraps past midnight | reference 23:50, current time 23:55, departure "23:30": moved to 23:30 on the next day | a departure within the hour before the reference stays on the reference day | not executed | Clock.AsWrittenWrapsPastMidnight | Clock.Normalize |
| custom_components/db_train_tracker/config_flow.py:77-80 | `";".join(result)` is applied to the stored option even when it is the field text the options form saved unconverted (line 104) | expressions "Train to(.+)" saved in the options form, form opened again: the field shows "T;r;a;i;n; ;t;o;(;.;+;)" | a stored text is shown as it is | not executed | ConfigFlow.EnteredExpressionsGarbled | ConfigFlow.MenuExpressionsRoundTrip |
| custom_components/db_train_tracker/config_flow.py:81-82 | the mapping field joins the characters of a saved text the same way | mappings "a,b" saved in the options form, form opened again: the field shows "a;,;b", which fails with `mapping_format` | a stored text is shown as it is | not executed | ConfigFlow.EnteredMappingsGarbled | ConfigFlow.MenuMappingsRoundTrip |

For the clock, the pipeline (`departure_dt`, `arrival_dt` and everything built on them) follows the code as written; the corrected reading is defined and proved beside it. For the options form, the corrected field values are the ones the round-trip lemmas state. Connections are sorted by departure only when duplicates are removed; otherwise they keep the order the schedule source gave them in.

=== FILE: clock.dfy ===
/** Local wall-clock instants and the resolution of a bare "HH:MM" connection
    time against the instant a connection search was made for. */
module Clock {
  import opened Wrappers
  import opened Text

  const MinutesPerDay: int := 1440
  const MicrosPerMinute: int := 60_000_000

  /** A local date-time: the day number, the minute of that day and the
      microseconds (seconds included) within that minute. */
  datatype DateTime = DateTime(day: int, minute: int, micro: int)

  type Instant = t: DateTime | 0 <= t.minute < MinutesPerDay && 0 <= t.micro < MicrosPerMinute
    witness DateTime(0, 0, 0)

  /** Microseconds since local midnight of day 0: instants compare by this number. */
  function Ticks(t: Instant): int {
    (t.day * MinutesPerDay + t.minute) * MicrosPerMinute + t.micro
  }

  /** Comparing ticks is comparing (day, minute, microsecond) lexicographically. */
  lemma TicksOrder(a: Instant, b: Instant)
    ensures Ticks(a) <= Ticks(b) <==>
      (a.day < b.day || (a.day == b.day && (a.minute < b.minute || (a.minute == b.minute && a.micro <= b.micro))))
    ensures Ticks(a) == Ticks(b) <==> a == b
  {
  }

  /** `replace(second=0, microsecond=0)`. */
  function Truncate(t: Instant): (r: Instant)
    ensures r.day == t.day && r.minute == t.minute && r.micro == 0
    ensures Ticks(r) <= Ticks(t) < Ticks(r) + MicrosPerMinute
  {
    DateTime(t.day, t.minute, 0)
  }

  /** Local midnight of a day, as a calendar date-only entry is read. */
  function Midnight(day: int): (r: Instant)
    ensures r.day == day && Ticks(r) == day * MinutesPerDay * MicrosPerMinute
  {
    DateTime(day, 0, 0)
  }

  /** The hour field of `%H`: one digit, or two digits from 00 to 23. */
  function HourField(s: string): (r: Option<int>)
    ensures r.Some? ==> 0 <= r.value < 24
  {
    if |s| == 1 && IsDigit(s[0]) then Some(DigitValue(s[0]))
    else if |s| == 2 && IsDigit(s[0]) && IsDigit(s[1]) && DigitValue(s[0]) * 10 + DigitValue(s[1]) < 24 then
      Some(DigitValue(s[0]) * 10 + DigitValue(s[1]))
    else None
  }

  /** The minute field of `%M`: one digit, or two digits from 00 to 59. */
  function MinuteField(s: string): (r: Option<int>)
    ensures r.Some? ==> 0 <= r.value < 60
  {
    if |s| == 1 && IsDigit(s[0]) then Some(DigitValue(s[0]))
    else if |s| == 2 && IsDigit(s[0]) && IsDigit(s[1]) && DigitValue(s[0]) * 10 + DigitValue(s[1]) < 60 then
      Some(DigitValue(s[0]) * 10 + DigitValue(s[1]))
    else None
  }

  /** `datetime.strptime(text, "%H:%M")`, giving the minute of the day it names;
      `None` is the `ValueError` raised for any other text. */
  function ParseClock(text: string): (r: Option<int>)
    ensures r.Some? ==> 0 <= r.value < MinutesPerDay
    ensures r.Some? ==> (|text| >= 3 && text[1] == ':') || (|text| >= 4 && text[2] == ':')
  {
    if |text| >= 3 && text[1] == ':' && HourField(text[..1]).Some? && MinuteField(text[2..]).Some? then
      Some(HourField(text[..1]).value * 60 + MinuteField(text[2..]).value)
    else if |text| >= 4 && text[2] == ':' && HourField(text[..2]).Some? && MinuteField(text[3..]).Some? then
      Some(HourField(text[..2]).value * 60 + MinuteField(text[3..]).value)
    else None
  }

  function TwoDigits(n: nat): (s: string)
    requires n < 100
    ensures |s| == 2 && IsDigit(s[0]) && IsDigit(s[1])
    ensures DigitValue(s[0]) * 10 + DigitValue(s[1]) == n
  {
    [DigitChar(n / 10), DigitChar(n % 10)]
  }

  /** The zero-padded "HH:MM" text of a minute of the day. */
  function FormatClock(minute: int): (s: string)
    requires 0 <= minute < MinutesPerDay
    ensures |s| == 5 && s[2] == ':'
  {
    TwoDigits(minute / 60) + ":" + TwoDigits(minute % 60)
  }

  /** Every zero-padded "HH:MM" reads back as the minute it was made from. */
  lemma ParseFormatClock(minute: int)
    requires 0 <= minute < MinutesPerDay
    ensures ParseClock(FormatClock(minute)) == Some(minute)
  {
    var s := FormatClock(minute);
    assert s[..2] == TwoDigits(minute / 60) && s[3..] == TwoDigits(minute % 60);
    assert s[1] != ':';
  }

  /** Single-digit hours and minutes are accepted as well ("7:5" is 07:05). */
  lemma ParseShortClock()
    ensures ParseClock("7:5") == Some(7 * 60 + 5)
    ensures ParseClock("9:30") == Some(9 * 60 + 30)
    ensures ParseClock("24:00") == None
    ensures ParseClock("18:145") == None
  {
    assert "7:5"[..1] == "7" && "7:5"[2..] == "5";
    assert "9:30"[..1] == "9" && "9:30"[2..] == "30";
    assert "24:00"[..2] == "24";
    assert "18:145"[..2] == "18" && "18:145"[3..] == "145";
  }

  /** The one-hour allowance applied when the current time is past the
      reference truncated to the minute: the schedule source then also answers
      with connections up to an hour before the requested time. */
  function Tolerance(reference: Instant, now: Instant): (m: int)
    ensures m == 0 || m == 60
    ensures m == 60 <==> Ticks(now) > Ticks(Truncate(reference))
  {
    if Ticks(now) > Ticks(Truncate(reference)) then 60 else 0
  }

  /** `TravelInformation._normalize_time_string` exactly as written: the
      allowance is added to the clock time and the sum is taken modulo a day
      before it is compared with the reference's time of day. */
  function NormalizeAsWritten(reference: Instant, now: Instant, text: string): (r: Option<Instant>)
    ensures r.Some? <==> ParseClock(text).Some?
    ensures r.Some? ==> r.value.minute == ParseClock(text).value && r.value.micro == 0
    ensures r.Some? ==> r.value.day == reference.day || r.value.day == reference.day + 1
    ensures r.Some? ==>
      (r.value.day == reference.day + 1 <==>
        (ParseClock(text).value + Tolerance(reference, now)) % MinutesPerDay < reference.minute)
  {
    match ParseClock(text)
    case None => None
    case Some(clock) =>
      var check := (clock + Tolerance(reference, now)) % MinutesPerDay;
      if check < reference.minute then Some(DateTime(reference.day + 1, clock, 0))
      else Some(DateTime(reference.day, clock, 0))
  }

  /** The normalisation the rest of the model uses: the allowance does not wrap
      past midnight, so the result is the earliest instant, on the reference's
      day or the next, with the parsed time of day that is not before the
      reference truncated to the minute less the allowance. */
  function Normalize(reference: Instant, now: Instant, text: string): (r: Option<Instant>)
    ensures r.Some? <==> ParseClock(text).Some?
    ensures r.Some? ==> r.value.minute == ParseClock(text).value && r.value.micro == 0
    ensures r.Some? ==> r.value.day == reference.day || r.value.day == reference.day + 1
    ensures r.Some? ==>
      Ticks(r.value) >= Ticks(Truncate(reference)) - Tolerance(reference, now) * MicrosPerMinute
    ensures r.Some? && r.value.day == reference.day + 1 ==>
      Ticks(DateTime(reference.day, r.value.minute, 0)) <
        Ticks(Truncate(reference)) - Tolerance(reference, now) * MicrosPerMinute
  {
    match ParseClock(text)
    case None => None
    case Some(clock) =>
      if clock + Tolerance(reference, now) < reference.minute then Some(DateTime(reference.day + 1, clock, 0))
      else Some(DateTime(reference.day, clock, 0))
  }

  /** Away from midnight the two readings agree: they differ only when the
      clock time plus the allowance reaches past the end of the day. */
  lemma NormalizeAgreesBeforeMidnight(reference: Instant, now: Instant, text: string)
    requires ParseClock(text).Some?
    requires ParseClock(text).value + Tolerance(reference, now) < MinutesPerDay
    ensures Normalize(reference, now, text) == NormalizeAsWritten(reference, now, text)
  {
    var shifted := ParseClock(text).value + Tolerance(reference, now);
    assert 0 <= shifted < MinutesPerDay;
    assert shifted % MinutesPerDay == shifted;
  }

  /** When the current time is not past the reference, nothing is placed
      before the reference truncated to the minute — in either reading. */
  lemma NormalizeNotBeforeReference(reference: Instant, now: Instant, text: string)
    requires Ticks(now) <= Ticks(Truncate(reference))
    ensures Normalize(reference, now, text).Some? ==>
      Ticks(Normalize(reference, now, text).value) >= Ticks(Truncate(reference))
    ensures NormalizeAsWritten(reference, now, text).Some? ==>
      Ticks(NormalizeAsWritten(reference, now, text).value) >= Ticks(Truncate(reference))
  {
    var c := ParseClock(text);
    if c.Some? {
      assert c.value % MinutesPerDay == c.value;
    }
  }

  /** The reading as written moves a departure twenty minutes before a 23:50
      reference to the following evening, although the allowance was meant to
      keep it on the reference day; the corrected reading keeps it there. */
  lemma AsWrittenWrapsPastMidnight()
    ensures var reference := DateTime(0, 23 * 60 + 50, 0);
      var now := DateTime(0, 23 * 60 + 55, 0);
      && NormalizeAsWritten(reference, now, "23:30") == Some(DateTime(1, 23 * 60 + 30, 0))
      && Normalize(reference, now, "23:30") == Some(DateTime(0, 23 * 60 + 30, 0))
  {
    assert "23:30"[..2] == "23" && "23:30"[3..] == "30";
    assert ParseClock("23:30") == Some(23 * 60 + 30);
  }
}

=== FILE: config_flow.dfy ===
/** The text fields of the configuration and options forms: station mappings
    written "pattern,replacement;pattern,replacement" and expressions written
    "expression;expression", and the way stored values are written back into
    those fields. */
module ConfigFlow {
  import opened Wrappers
  import opened Text
  import Gatherer

  /** The `vol.Invalid` messages of the two validators. */
  datatype FormError = MappingFormat | ExpressionsEmpty

  /** The pair a "pattern,replacement" segment stands for, or `None` when the
      stripped segment does not split into exactly two items at ",". */
  function MappingOf(segment: string): (r: Option<(string, string)>)
    ensures r.Some? <==> |Split(Strip(segment), ',')| == 2
    ensures r.Some? ==> Trimmed(r.value.0) && Trimmed(r.value.1)
    ensures r.Some? ==> ',' !in r.value.0 && ',' !in r.value.1
  {
    var items := Split(Strip(segment), ',');
    if |items| != 2 then None
    else
      StripKeepsOut(items[0], ',');
      StripKeepsOut(items[1], ',');
      Some((Strip(items[0]), Strip(items[1])))
  }

  /** A stripped sub-string of a piece without `c` does not contain `c`. */
  lemma {:induction false} StripKeepsOut(s: string, c: char)
    requires c !in s
    ensures c !in Strip(s)
  {
    TrimLeftSub(s);
    TrimRightSub(TrimLeft(s));
  }

  lemma {:induction false} TrimLeftSub(s: string)
    ensures forall x :: x in TrimLeft(s) ==> x in s
    decreases |s|
  {
    if |s| > 0 && IsSpace(s[0]) {
      TrimLeftSub(s[1..]);
    }
  }

  lemma {:induction false} TrimRightSub(s: string)
    ensures forall x :: x in TrimRight(s) ==> x in s
    decreases |s|
  {
    if |s| > 0 && IsSpace(s[|s| - 1]) {
      TrimRightSub(s[..|s| - 1]);
    }
  }

  /** The loop of `_validate_mappings` over the ";"-segments. */
  function MappingsOf(segments: seq<string>): (r: Result<seq<(string, string)>, FormError>)
    ensures r.Failure? <==> exists i :: 0 <= i < |segments| && MappingOf(segments[i]).None?
    ensures r.Failure? ==> r.error == MappingFormat
    ensures r.Success? ==> |r.value| == |segments|
    ensures r.Success? ==> forall i :: 0 <= i < |segments| ==> MappingOf(segments[i]) == Some(r.value[i])
    decreases |segments|
  {
    if |segments| == 0 then Success([])
    else
      match MappingOf(segments[0])
      case None => Failure(MappingFormat)
      case Some(m) =>
        match MappingsOf(segments[1..])
        case Failure(e) =>
          FailStep(segments, MappingOf);
          Failure(e)
        case Success(rest) =>
          ReadStep(segments, m, rest, MappingOf);
          Success([m] + rest)
  }

  /** Some segment of a list fails to read when some segment of its tail does. */
  lemma FailStep<A, B>(xs: seq<A>, f: A -> Option<B>)
    requires |xs| >= 1
    requires exists k :: 0 <= k < |xs[1..]| && f(xs[1..][k]).None?
    ensures exists i :: 0 <= i < |xs| && f(xs[i]).None?
  {
    var k :| 0 <= k < |xs[1..]| && f(xs[1..][k]).None?;
    assert xs[1..][k] == xs[k + 1];
  }

  /** Reading the head and then the tail reads every element in place. */
  lemma ReadStep<A, B>(xs: seq<A>, m: B, rest: seq<B>, f: A -> Option<B>)
    requires |xs| >= 1 && f(xs[0]) == Some(m)
    requires |rest| == |xs| - 1
    requires forall k :: 0 <= k < |xs[1..]| ==> f(xs[1..][k]) == Some(rest[k])
    ensures forall i :: 0 <= i < |xs| ==> f(xs[i]) == Some(([m] + rest)[i])
  {
    forall i | 0 <= i < |xs| ensures f(xs[i]) == Some(([m] + rest)[i]) {
      if i > 0 {
        assert xs[i] == xs[1..][i - 1];
      }
    }
  }

  /** `_validate_mappings`: an empty field means no mappings. */
  function ValidateMappings(text: string): (r: Result<seq<(string, string)>, FormError>)
    ensures text == "" ==> r == Success([])
    ensures r.Failure? ==> r.error == MappingFormat
    ensures r.Success? ==> forall i :: 0 <= i < |r.value| ==>
      Trimmed(r.value[i].0) && Trimmed(r.value[i].1) && ',' !in r.value[i].0 && ',' !in r.value[i].1
  {
    if text == "" then Success([]) else MappingsOf(Split(text, ';'))
  }

  /** On success there is one pair per ";"-segment, in order, both items stripped. */
  lemma ValidateMappingsSegments(text: string)
    requires text != "" && ValidateMappings(text).Success?
    ensures var r := ValidateMappings(text).value; var segments := Split(text, ';');
      |r| == |segments| &&
      forall i :: 0 <= i < |r| ==>
        var items := Split(Strip(segments[i]), ',');
        |items| == 2 && r[i] == (Strip(items[0]), Strip(items[1]))
  {
  }

  /** `_validate_expressions`: an empty field is refused; otherwise every
      ";"-segment is one expression, stripped. */
  function ValidateExpressions(text: string): (r: Result<seq<string>, FormError>)
    ensures r.Failure? <==> text == ""
    ensures r.Failure? ==> r.error == ExpressionsEmpty
    ensures r.Success? ==> |r.value| == |Split(text, ';')| && forall i :: 0 <= i < |r.value| ==> Trimmed(r.value[i])
    ensures r.Success? ==> forall i :: 0 <= i < |r.value| ==> r.value[i] == Strip(Split(text, ';')[i])
  {
    if text == "" then Failure(ExpressionsEmpty) else Success(StripAll(Split(text, ';')))
  }

  function StripAll(parts: seq<string>): (r: seq<string>)
    ensures |r| == |parts| && forall i :: 0 <= i < |r| ==> r[i] == Strip(parts[i])
    decreases |parts|
  {
    if |parts| == 0 then [] else [Strip(parts[0])] + StripAll(parts[1..])
  }

  /** Splitting text that ends in the separator gives an empty last piece. */
  lemma {:induction false} SplitTrailing(s: string, sep: char)
    ensures Split(s + [sep], sep) == Split(s, sep) + [""]
    decreases |s|
  {
    if |s| == 0 {
      assert [sep][1..] == "";
    } else {
      SplitTrailing(s[1..], sep);
      assert (s + [sep])[1..] == s[1..] + [sep];
    }
  }

  /** A ";" at the end leaves an empty last segment, which is not a mapping. */
  lemma TrailingSeparatorRejected(text: string)
    ensures ValidateMappings(text + ";") == Failure(MappingFormat)
  {
    SplitTrailing(text, ';');
    var segments := Split(text + ";", ';');
    assert segments[|segments| - 1] == "";
    assert Strip("") == "";
    assert Split("", ',') == [""];
    assert MappingOf(segments[|segments| - 1]).None?;
  }

  /** A segment reads as a pair exactly when it holds one comma: none, or
      two and more, are refused. */
  lemma MappingNeedsOneComma(segment: string)
    ensures MappingOf(segment).Some? <==> Commas(segment) == 1
  {
    SplitCommas(Strip(segment));
    CommasOfTrimLeft(segment);
    CommasOfTrimRight(TrimLeft(segment));
  }

  /** Every segment holds exactly one comma. */
  predicate OneCommaEach(segments: seq<string>) {
    forall i :: 0 <= i < |segments| ==> Commas(segments[i]) == 1
  }

  /** A list of ";"-segments reads exactly when each holds one comma. */
  lemma MappingsOfCommas(segments: seq<string>)
    ensures MappingsOf(segments).Success? <==> OneCommaEach(segments)
  {
    forall i | 0 <= i < |segments| ensures MappingOf(segments[i]).Some? <==> Commas(segments[i]) == 1 {
      MappingNeedsOneComma(segments[i]);
    }
  }

  /** A non-empty mappings field is accepted exactly when each of its
      ";"-segments holds one comma. */
  lemma ValidateMappingsCommas(text: string)
    requires text != ""
    ensures ValidateMappings(text).Success? <==> OneCommaEach(Split(text, ';'))
  {
    var segments := Split(text, ';');
    MappingsOfCommas(segments);
    assert ValidateMappings(text) == MappingsOf(segments);
  }

  /** Splitting at "," gives one piece more than there are commas. */
  lemma {:induction false} SplitCommas(s: string)
    ensures |Split(s, ',')| == Commas(s) + 1
    decreases |s|
  {
    if |s| > 0 {
      SplitCommas(s[1..]);
    }
  }

  /** The number of commas in a string. */
  function Commas(s: string): nat
    decreases |s|
  {
    if |s| == 0 then 0 else (if s[0] == ',' then 1 else 0) + Commas(s[1..])
  }

  lemma {:induction false} CommasConcat(a: string, b: string)
    ensures Commas(a + b) == Commas(a) + Commas(b)
    decreases |a|
  {
    if |a| == 0 {
      assert a + b == b;
    } else {
      CommasConcat(a[1..], b);
      assert (a + b)[1..] == a[1..] + b;
    }
  }

  lemma {:induction false} NoCommas(a: string)
    requires ',' !in a
    ensures Commas(a) == 0
    decreases |a|
  {
    if |a| > 0 {
      NoCommas(a[1..]);
    }
  }

  lemma {:induction false} CommasOfTrimLeft(s: string)
    ensures Commas(TrimLeft(s)) == Commas(s)
    decreases |s|
  {
    if |s| > 0 && IsSpace(s[0]) {
      CommasOfTrimLeft(s[1..]);
    }
  }

  lemma {:induction false} CommasOfTrimRight(s: string)
    ensures Commas(TrimRight(s)) == Commas(s)
    decreases |s|
  {
    if |s| > 0 && IsSpace(s[|s| - 1]) {
      CommasOfTrimRight(s[..|s| - 1]);
      CommasConcat(s[..|s| - 1], [s[|s| - 1]]);
      assert s[..|s| - 1] + [s[|s| - 1]] == s;
      assert Commas([s[|s| - 1]]) == 0 by {
        assert [s[|s| - 1]][1..] == [];
      }
    }
  }

  /** `";".join(",".join(m) for m in mappings)`, as the options form shows them. */
  function SerializeMappings(ms: seq<(string, string)>): string {
    Join(Segments(ms), ';')
  }

  function Segments(ms: seq<(string, string)>): (r: seq<string>)
    ensures |r| == |ms| && forall i :: 0 <= i < |r| ==> r[i] == ms[i].0 + "," + ms[i].1
    decreases |ms|
  {
    if |ms| == 0 then [] else [ms[0].0 + "," + ms[0].1] + Segments(ms[1..])
  }

  /** A mapping item the form can carry unchanged: no separator and no
      surrounding white space. */
  predicate PlainItem(s: string) {
    ';' !in s && ',' !in s && Trimmed(s)
  }

  lemma SegmentReads(a: string, b: string)
    requires PlainItem(a) && PlainItem(b)
    ensures MappingOf(a + "," + b) == Some((a, b))
  {
    var seg := a + "," + b;
    assert Trimmed(seg) by {
      assert seg[0] == (if |a| > 0 then a[0] else ',');
      assert seg[|seg| - 1] == (if |b| > 0 then b[|b| - 1] else ',');
    }
    TrimmedIsFixpoint(seg);
    assert Join([a, b], ',') == seg by {
      assert [a, b][1..] == [b];
    }
    SplitJoin([a, b], ',');
    TrimmedIsFixpoint(a);
    TrimmedIsFixpoint(b);
  }

  /** Mappings shown in the options form validate back to the stored mappings. */
  lemma MappingsRoundTrip(ms: seq<(string, string)>)
    requires forall i :: 0 <= i < |ms| ==> PlainItem(ms[i].0) && PlainItem(ms[i].1)
    ensures ValidateMappings(SerializeMappings(ms)) == Success(ms)
  {
    var segs := Segments(ms);
    if |ms| > 0 {
      forall i | 0 <= i < |segs| ensures ';' !in segs[i] && MappingOf(segs[i]) == Some(ms[i]) {
        SegmentReads(ms[i].0, ms[i].1);
      }
      SplitJoin(segs, ';');
      JoinNonEmpty(segs, ';');
      var r := MappingsOf(segs);
      assert r.Success?;
      assert r.value == ms;
    }
  }

  /** Joining pieces, the first of which is not empty, is not empty. */
  lemma JoinNonEmpty(parts: seq<string>, sep: char)
    requires |parts| >= 1 && |parts[0]| > 0
    ensures Join(parts, sep) != ""
  {
    if |parts| > 1 {
      assert |Join(parts, sep)| >= |parts[0]|;
    }
  }

  /** Expressions shown in the options form validate back to the stored
      expressions, provided the joined text is not empty. */
  lemma ExpressionsRoundTrip(es: seq<string>)
    requires |es| >= 1
    requires forall i :: 0 <= i < |es| ==> ';' !in es[i] && Trimmed(es[i])
    requires Join(es, ';') != ""
    ensures ValidateExpressions(Join(es, ';')) == Success(es)
  {
    var text := Join(es, ';');
    SplitJoin(es, ';');
    assert Split(text, ';') == es;
    var r := ValidateExpressions(text);
    assert r == Success(StripAll(es));
    forall i | 0 <= i < |es| ensures StripAll(es)[i] == es[i] {
      TrimmedIsFixpoint(es[i]);
    }
    assert StripAll(es) == es;
  }

  /** A stored list that joins to the empty text does not survive the form. */
  lemma EmptyExpressionsRefused()
    ensures ValidateExpressions(Join([], ';')) == Failure(ExpressionsEmpty)
    ensures ValidateExpressions(Join([""], ';')) == Failure(ExpressionsEmpty)
  {
  }

  /** The default expressions carry no ";" and no surrounding white space. */
  lemma DefaultExpressionsPlain()
    ensures forall i :: 0 <= i < |Gatherer.DefaultExpressions| ==>
      ';' !in Gatherer.DefaultExpressions[i] && Trimmed(Gatherer.DefaultExpressions[i])
  {
    var es := Gatherer.DefaultExpressions;
    PlainText(es[0]);
    PlainText(es[1]);
    PlainText(es[2]);
    PlainText(es[3]);
    PlainText(es[4]);
  }

  lemma PlainText(e: string)
    requires |e| > 0 && !IsSpace(e[0]) && !IsSpace(e[|e| - 1])
    requires forall k :: 0 <= k < |e| ==> e[k] != ';'
    ensures ';' !in e && Trimmed(e)
  {
  }

  /** The default expressions, as the form shows them, validate back to themselves. */
  lemma DefaultExpressionsRoundTrip()
    ensures ValidateExpressions(Join(Gatherer.DefaultExpressions, ';')) == Success(Gatherer.DefaultExpressions)
  {
    var es := Gatherer.DefaultExpressions;
    DefaultExpressionsPlain();
    JoinNonEmpty(es, ';');
    ExpressionsRoundTrip(es);
  }

  /** `__get_option`: the stored option, else the value the entry was created
      with, else the default. */
  function StoredValue<T>(options: Option<T>, data: Option<T>, default: T): (r: T)
    ensures options.Some? ==> r == options.value
    ensures options.None? && data.Some? ==> r == data.value
    ensures options.None? && data.None? ==> r == default
  {
    if options.Some? then options.value else if data.Some? then data.value else default
  }

  /** What a list-valued option holds: the validated list the setup flow
      stores, or the field text as entered, which the options form stores
      unconverted and which is also the form's default. */
  datatype StoredField<T> = Validated(items: seq<T>) | Entered(text: string)

  /** Python's iteration over a text: one single-character item per character. */
  function Characters(s: string): (r: seq<string>)
    ensures |r| == |s| && forall i :: 0 <= i < |r| ==> r[i] == [s[i]]
    decreases |s|
  {
    if |s| == 0 then [] else [[s[0]]] + Characters(s[1..])
  }

  /** The expression field as `__get_option` writes it: `";".join` of whatever
      is stored, which for an entered text puts ";" between its characters. */
  function ExpressionFieldAsWritten(v: StoredField<string>): string {
    match v
    case Validated(items) => Join(items, ';')
    case Entered(text) => Join(Characters(text), ';')
  }

  /** The mapping field as `__get_option` writes it: for an entered text every
      character is an item, which `",".join` leaves as it is. */
  function MappingFieldAsWritten(v: StoredField<(string, string)>): string {
    match v
    case Validated(items) => SerializeMappings(items)
    case Entered(text) => Join(Characters(text), ';')
  }

  /** The expression field as intended: a stored list is joined, an entered
      text is shown as it was entered. */
  function ExpressionField(v: StoredField<string>): string {
    match v
    case Validated(items) => Join(items, ';')
    case Entered(text) => text
  }

  /** The mapping field as intended. */
  function MappingField(v: StoredField<(string, string)>): string {
    match v
    case Validated(items) => SerializeMappings(items)
    case Entered(text) => text
  }

  /** `DEFAULT_FILTERED_REGULAR_EXPRESSIONS_STRING`. */
  const DefaultExpressionsText: string := Join(Gatherer.DefaultExpressions, ';')

  /** `DEFAULT_MAPPINGS_STRING`: the default mappings are empty. */
  const DefaultMappingsText: string := ""

  /** The first piece of a join is where the joined text starts. */
  lemma JoinStartsWithFirst(parts: seq<string>, sep: char)
    requires |parts| >= 1
    ensures |Join(parts, sep)| >= |parts[0]| && Join(parts, sep)[..|parts[0]|] == parts[0]
  {
  }

  /** A text joined from single characters starts with the first character
      and a separator. */
  lemma {:induction false} InterleavedStart(s: string, sep: char)
    requires |s| >= 2
    ensures var t := Join(Characters(s), sep); |t| >= 2 && t[0] == s[0] && t[1] == sep
  {
    var cs := Characters(s);
    assert cs[1..] == Characters(s[1..]);
    JoinStartsWithFirst(cs[1..], sep);
  }

  /** Splitting such a text again at the separator leaves a first piece of at
      most one character, and that character is the original first one. */
  lemma FirstPieceOfInterleaved(s: string, sep: char)
    requires |s| >= 2
    ensures var p := Split(Join(Characters(s), sep), sep)[0];
      |p| <= 1 && forall x :: x in p ==> x == s[0]
  {
    var t := Join(Characters(s), sep);
    var parts := Split(t, sep);
    InterleavedStart(s, sep);
    JoinStartsWithFirst(parts, sep);
    var p := parts[0];
    if |p| == 1 {
      assert p[0] == t[0];
    }
  }

  /** As written, re-opening the options form after expressions were entered
      shows a field whose first expression is at most one character, whatever
      the first entered expression was. */
  lemma EnteredExpressionsGarbled(text: string)
    requires ValidateExpressions(text).Success? && |ValidateExpressions(text).value[0]| >= 2
    ensures var r := ValidateExpressions(ExpressionFieldAsWritten(Entered(text)));
      r.Success? && |r.value[0]| <= 1 && r != ValidateExpressions(text)
  {
    var parts := Split(text, ';');
    JoinStartsWithFirst(parts, ';');
    assert |Strip(parts[0])| >= 2;
    FirstPieceOfInterleaved(text, ';');
    InterleavedStart(text, ';');
  }

  /** As written, mappings entered in the options form come back as a field
      that no longer validates. */
  lemma EnteredMappingsGarbled(text: string)
    requires |text| >= 2 && text[0] != ','
    ensures ValidateMappings(MappingFieldAsWritten(Entered(text))).Failure?
  {
    var t := Join(Characters(text), ';');
    InterleavedStart(text, ';');
    FirstPieceOfInterleaved(text, ';');
    var p := Split(t, ';')[0];
    assert ',' !in p;
    StripKeepsOut(p, ',');
    SplitNoSeparator(Strip(p), ',');
    assert MappingOf(p).None?;
  }

  /** The form the corrected reading starts from validates back to the option
      in use: the defaults when nothing is stored, a plain stored list as
      itself, and an entered text as that text does. */
  lemma MenuExpressionsRoundTrip(options: Option<StoredField<string>>, data: Option<StoredField<string>>)
    requires var v := StoredValue(options, data, Entered(DefaultExpressionsText));
      v.Validated? ==>
        && |v.items| >= 1
        && Join(v.items, ';') != ""
        && forall i :: 0 <= i < |v.items| ==> ';' !in v.items[i] && Trimmed(v.items[i])
    ensures options.None? && data.None? ==>
      ValidateExpressions(ExpressionField(StoredValue(options, data, Entered(DefaultExpressionsText))))
        == Success(Gatherer.DefaultExpressions)
    ensures var v := StoredValue(options, data, Entered(DefaultExpressionsText));
      ValidateExpressions(ExpressionField(v)) ==
        (if v.Validated? then Success(v.items) else ValidateExpressions(v.text))
  {
    var v := StoredValue(options, data, Entered(DefaultExpressionsText));
    if v.Validated? {
      ExpressionsRoundTrip(v.items);
    } else if options.None? && data.None? {
      DefaultExpressionsRoundTrip();
    }
  }

  /** The mapping field the corrected reading starts from validates back to
      the option in use: no mappings when nothing is stored, a plain stored
      list as itself, and an entered text as that text does. */
  lemma MenuMappingsRoundTrip(options: Option<StoredField<(string, string)>>, data: Option<StoredField<(string, string)>>)
    requires var v := StoredValue(options, data, Entered(DefaultMappingsText));
      v.Validated? ==> forall i :: 0 <= i < |v.items| ==> PlainItem(v.items[i].0) && PlainItem(v.items[i].1)
    ensures options.None? && data.None? ==>
      ValidateMappings(MappingField(StoredValue(options, data, Entered(DefaultMappingsText)))) == Success([])
    ensures var v := StoredValue(options, data, Entered(DefaultMappingsText));
      ValidateMappings(MappingField(v)) ==
        (if v.Validated? then Success(v.items) else ValidateMappings(v.text))
  {
    var v := StoredValue(options, data, Entered(DefaultMappingsText));
    if v.Validated? {
      MappingsRoundTrip(v.items);
    }
  }
}

=== FILE: dedup.dfy ===
/** `DataGatherer._deduplicate_connections`: connections that share the same
    resolved (departure, arrival) pair are collapsed to one representative,
    a cancelled one only when the whole group is cancelled, and the survivors
    are sorted by departure. */
module Dedup {
  import opened Wrappers
  import opened Seqs
  import opened Clock
  import opened Travel

  /** A connection together with its resolved departure and arrival. */
  datatype Timed = Timed(info: TravelInformation, departure: Instant, arrival: Instant)

  function KeyOf(t: Timed): (Instant, Instant) {
    (t.departure, t.arrival)
  }

  function DepartureTicks(t: Timed): int {
    Ticks(t.departure)
  }

  function KeySet(s: seq<Timed>): set<(Instant, Instant)> {
    set i | 0 <= i < |s| :: KeyOf(s[i])
  }

  predicate KeysDistinct(s: seq<Timed>) {
    forall i, j :: 0 <= i < j < |s| ==> KeyOf(s[i]) != KeyOf(s[j])
  }

  /** The keys of `s` in the order they are first seen — the iteration order
      of the grouping dictionary. */
  function DistinctKeys(s: seq<Timed>): (ks: seq<(Instant, Instant)>)
    ensures forall i, j :: 0 <= i < j < |ks| ==> ks[i] != ks[j]
    ensures forall k :: k in ks <==> k in KeySet(s)
    ensures |ks| <= |s|
    decreases |s|
  {
    if |s| == 0 then []
    else
      var init := s[..|s| - 1];
      var ks := DistinctKeys(init);
      assert forall k :: k in KeySet(s) <==> k in KeySet(init) || k == KeyOf(s[|s| - 1]) by {
        forall k | k in KeySet(s) ensures k in KeySet(init) || k == KeyOf(s[|s| - 1]) {
          var i :| 0 <= i < |s| && KeyOf(s[i]) == k;
          if i < |s| - 1 {
            assert KeyOf(init[i]) == k;
          }
        }
        forall k | k in KeySet(init) ensures k in KeySet(s) {
          var i :| 0 <= i < |init| && KeyOf(init[i]) == k;
          assert KeyOf(s[i]) == k;
        }
      }
      if KeyOf(s[|s| - 1]) in ks then ks else ks + [KeyOf(s[|s| - 1])]
  }

  /** The position where key `k` is first seen in `s`. */
  function FirstSeen(s: seq<Timed>, k: (Instant, Instant)): (p: nat)
    requires k in KeySet(s)
    ensures p < |s| && KeyOf(s[p]) == k
    ensures forall q :: 0 <= q < p ==> KeyOf(s[q]) != k
  {
    var j :| 0 <= j < |s| && KeyOf(s[j]) == k;
    assert Eligible(s[j], k, false);
    FirstEligible(s, k, false).value
  }

  /** Any position holding the key with none before it is the first-seen one. */
  lemma FirstSeenAt(s: seq<Timed>, k: (Instant, Instant), p: nat)
    requires p < |s| && KeyOf(s[p]) == k
    requires forall q :: 0 <= q < p ==> KeyOf(s[q]) != k
    ensures k in KeySet(s) && FirstSeen(s, k) == p
  {
  }

  /** A key already seen before the last member is first seen where it was. */
  lemma FirstSeenInit(s: seq<Timed>, k: (Instant, Instant))
    requires |s| > 0 && k in KeySet(s[..|s| - 1])
    ensures k in KeySet(s) && FirstSeen(s, k) == FirstSeen(s[..|s| - 1], k)
  {
    var init := s[..|s| - 1];
    var p := FirstSeen(init, k);
    assert s[p] == init[p];
    forall q | 0 <= q < p ensures KeyOf(s[q]) != k {
      assert s[q] == init[q];
    }
    FirstSeenAt(s, k, p);
  }

  /** A key new with the last member is first seen there. */
  lemma FirstSeenLast(s: seq<Timed>)
    requires |s| > 0 && KeyOf(s[|s| - 1]) !in KeySet(s[..|s| - 1])
    ensures KeyOf(s[|s| - 1]) in KeySet(s) && FirstSeen(s, KeyOf(s[|s| - 1])) == |s| - 1
  {
    var init := s[..|s| - 1];
    forall q | 0 <= q < |s| - 1 ensures KeyOf(s[q]) != KeyOf(s[|s| - 1]) {
      assert s[q] == init[q];
      assert KeyOf(init[q]) in KeySet(init);
    }
    FirstSeenAt(s, KeyOf(s[|s| - 1]), |s| - 1);
  }

  /** Keys of `s`, listed in the order they are first seen in `s`. */
  predicate FirstSeenOrder(s: seq<Timed>, ks: seq<(Instant, Instant)>) {
    && (forall i :: 0 <= i < |ks| ==> ks[i] in KeySet(s))
    && (forall i, j :: 0 <= i < j < |ks| ==> FirstSeen(s, ks[i]) < FirstSeen(s, ks[j]))
  }

  /** Appending a member keeps the order, and a new key goes last. */
  lemma FirstSeenOrderStep(s: seq<Timed>, ks0: seq<(Instant, Instant)>)
    requires |s| > 0 && FirstSeenOrder(s[..|s| - 1], ks0)
    ensures KeyOf(s[|s| - 1]) in KeySet(s[..|s| - 1]) ==> FirstSeenOrder(s, ks0)
    ensures KeyOf(s[|s| - 1]) !in KeySet(s[..|s| - 1]) ==> FirstSeenOrder(s, ks0 + [KeyOf(s[|s| - 1])])
  {
    var init := s[..|s| - 1];
    var last := KeyOf(s[|s| - 1]);
    forall i | 0 <= i < |ks0| ensures ks0[i] in KeySet(s) && FirstSeen(s, ks0[i]) == FirstSeen(init, ks0[i]) {
      FirstSeenInit(s, ks0[i]);
    }
    if last !in KeySet(init) {
      var ks := ks0 + [last];
      FirstSeenLast(s);
      forall i, j | 0 <= i < j < |ks| ensures FirstSeen(s, ks[i]) < FirstSeen(s, ks[j]) {
        assert ks[i] == ks0[i];
        if j < |ks0| {
          assert ks[j] == ks0[j];
        }
      }
    }
  }

  /** `DistinctKeys` lists the keys in the order they are first seen in `s`,
      which is the iteration order of the grouping dictionary. */
  lemma {:induction false} DistinctKeysFirstSeen(s: seq<Timed>)
    ensures FirstSeenOrder(s, DistinctKeys(s))
    decreases |s|
  {
    if |s| > 0 {
      var init := s[..|s| - 1];
      var ks0 := DistinctKeys(init);
      DistinctKeysFirstSeen(init);
      FirstSeenOrderStep(s, ks0);
      assert KeyOf(s[|s| - 1]) in ks0 <==> KeyOf(s[|s| - 1]) in KeySet(init);
    }
  }

  /** A member a group may be represented by: one with key `k`, and a live
      one when only live members are asked for. */
  predicate Eligible(t: Timed, k: (Instant, Instant), liveOnly: bool) {
    KeyOf(t) == k && (liveOnly ==> !t.info.canceled)
  }

  /** The position of the first eligible member of `s`, if there is one. */
  function FirstEligible(s: seq<Timed>, k: (Instant, Instant), liveOnly: bool): (p: Option<nat>)
    ensures p.Some? ==> p.value < |s| && Eligible(s[p.value], k, liveOnly)
    ensures p.Some? ==> forall q :: 0 <= q < p.value ==> !Eligible(s[q], k, liveOnly)
    ensures p.None? ==> forall q :: 0 <= q < |s| ==> !Eligible(s[q], k, liveOnly)
    decreases |s|
  {
    if |s| == 0 then None
    else if Eligible(s[0], k, liveOnly) then Some(0)
    else
      match FirstEligible(s[1..], k, liveOnly)
      case None => None
      case Some(q) => Some(q + 1)
  }

  /** Where the representative of key `k` sits in `s`: the first live member
      of the group (`candidates[0]`), or the group's first member when all
      of it is cancelled (`entries_group[entry][0]`). */
  function Pick(s: seq<Timed>, k: (Instant, Instant)): (p: nat)
    requires k in KeySet(s)
    ensures p < |s| && KeyOf(s[p]) == k
  {
    match FirstEligible(s, k, true)
    case Some(p) => p
    case None =>
      var j :| 0 <= j < |s| && KeyOf(s[j]) == k;
      assert Eligible(s[j], k, false);
      FirstEligible(s, k, false).value
  }

  /** Position `p` holds the member the grouping chooses for its key: every
      earlier member with that key is cancelled while `p` is live, or all of
      the key's members are cancelled and `p` is the first of them. */
  predicate Chosen(s: seq<Timed>, p: int)
    requires 0 <= p < |s|
  {
    if !s[p].info.canceled then
      forall q :: 0 <= q < p && KeyOf(s[q]) == KeyOf(s[p]) ==> s[q].info.canceled
    else
      (forall q :: 0 <= q < |s| && KeyOf(s[q]) == KeyOf(s[p]) ==> s[q].info.canceled)
      && (forall q :: 0 <= q < p ==> KeyOf(s[q]) != KeyOf(s[p]))
  }

  lemma PickChosen(s: seq<Timed>, k: (Instant, Instant))
    requires k in KeySet(s)
    ensures Chosen(s, Pick(s, k))
  {
    var p := Pick(s, k);
    if FirstEligible(s, k, true).None? {
      assert forall q :: 0 <= q < |s| ==> !Eligible(s[q], k, true);
      assert forall q :: 0 <= q < p ==> !Eligible(s[q], k, false);
    }
  }

  /** One representative per key, in the order of `ks`. */
  function Representatives(s: seq<Timed>, ks: seq<(Instant, Instant)>): (r: seq<Timed>)
    requires forall i :: 0 <= i < |ks| ==> ks[i] in KeySet(s)
    ensures |r| == |ks|
    ensures forall i :: 0 <= i < |r| ==> r[i] == s[Pick(s, ks[i])]
    decreases |ks|
  {
    if |ks| == 0 then [] else [s[Pick(s, ks[0])]] + Representatives(s, ks[1..])
  }

  /** `_deduplicate_connections` on resolved connections. */
  function DedupCore(s: seq<Timed>): (r: seq<Timed>)
    ensures SortedBy(r, DepartureTicks)
    ensures KeysDistinct(r)
    ensures |r| <= |s|
  {
    var ks := DistinctKeys(s);
    var reps := Representatives(s, ks);
    assert KeysDistinct(reps);
    SortKeepsKeysDistinct(reps);
    SortBy(reps, DepartureTicks)
  }

  /** Each survivor is the member its key's group chooses. */
  lemma DedupCoreChosen(s: seq<Timed>)
    ensures forall i :: 0 <= i < |DedupCore(s)| ==>
      exists p :: 0 <= p < |s| && DedupCore(s)[i] == s[p] && Chosen(s, p)
  {
    var ks := DistinctKeys(s);
    var reps := Representatives(s, ks);
    var r := DedupCore(s);
    forall i | 0 <= i < |r| ensures exists p :: 0 <= p < |s| && r[i] == s[p] && Chosen(s, p) {
      SortMembers(reps, DepartureTicks, r[i]);
      var j :| 0 <= j < |reps| && reps[j] == r[i];
      PickChosen(s, ks[j]);
      var p := Pick(s, ks[j]);
      assert r[i] == s[p];
    }
  }

  /** Every key of the input survives. */
  lemma DedupCoreCovers(s: seq<Timed>)
    ensures forall j :: 0 <= j < |s| ==> exists i :: 0 <= i < |DedupCore(s)| && KeyOf(DedupCore(s)[i]) == KeyOf(s[j])
  {
    var ks := DistinctKeys(s);
    var reps := Representatives(s, ks);
    var r := DedupCore(s);
    forall j | 0 <= j < |s| ensures exists i :: 0 <= i < |r| && KeyOf(r[i]) == KeyOf(s[j]) {
      assert KeyOf(s[j]) in KeySet(s);
      var m :| 0 <= m < |ks| && ks[m] == KeyOf(s[j]);
      SortMembers(reps, DepartureTicks, reps[m]);
      var i :| 0 <= i < |r| && r[i] == reps[m];
    }
  }

  lemma {:induction false} InsertKeepsKeysDistinct(x: Timed, t: seq<Timed>)
    requires SortedBy(t, DepartureTicks) && KeysDistinct(t)
    requires forall i :: 0 <= i < |t| ==> KeyOf(t[i]) != KeyOf(x)
    ensures KeysDistinct(Insert(x, t, DepartureTicks))
    decreases |t|
  {
    if |t| > 0 && DepartureTicks(x) > DepartureTicks(t[0]) {
      InsertKeepsKeysDistinct(x, t[1..]);
      var rest := Insert(x, t[1..], DepartureTicks);
      forall j | 0 <= j < |rest| ensures KeyOf(rest[j]) != KeyOf(t[0]) {
        assert rest[j] in multiset(rest);
        assert rest[j] == x || rest[j] in multiset(t[1..]);
      }
    }
  }

  lemma {:induction false} SortKeepsKeysDistinct(s: seq<Timed>)
    requires KeysDistinct(s)
    ensures KeysDistinct(SortBy(s, DepartureTicks))
    decreases |s|
  {
    if |s| > 0 {
      SortKeepsKeysDistinct(s[1..]);
      var t := SortBy(s[1..], DepartureTicks);
      forall i | 0 <= i < |t| ensures KeyOf(t[i]) != KeyOf(s[0]) {
        assert t[i] in multiset(s[1..]);
      }
      InsertKeepsKeysDistinct(s[0], t);
    }
  }

  /** Resolves every departure and arrival; `None` when any of them is not
      "%H:%M" text (the `ValueError` the grouping loop raises). */
  function Stamp(cs: seq<TravelInformation>, now: Instant): (r: Option<seq<Timed>>)
    ensures r.Some? <==> forall i :: 0 <= i < |cs| ==> DepartureDt(cs[i], now).Some? && ArrivalDt(cs[i], now).Some?
    ensures r.Some? ==> |r.value| == |cs| && forall i :: 0 <= i < |cs| ==>
      && r.value[i].info == cs[i]
      && Some(r.value[i].departure) == DepartureDt(cs[i], now)
      && Some(r.value[i].arrival) == ArrivalDt(cs[i], now)
    decreases |cs|
  {
    if |cs| == 0 then Some([])
    else
      var d := DepartureDt(cs[0], now);
      var a := ArrivalDt(cs[0], now);
      var rest := Stamp(cs[1..], now);
      if d.None? || a.None? || rest.None? then
        assert rest.None? ==> exists i :: 0 <= i < |cs[1..]| && !(DepartureDt(cs[1..][i], now).Some? && ArrivalDt(cs[1..][i], now).Some?);
        None
      else Some([Timed(cs[0], d.value, a.value)] + rest.value)
  }

  function Infos(ts: seq<Timed>): (r: seq<TravelInformation>)
    ensures |r| == |ts| && forall i :: 0 <= i < |ts| ==> r[i] == ts[i].info
    decreases |ts|
  {
    if |ts| == 0 then [] else [ts[0].info] + Infos(ts[1..])
  }

  /** `_deduplicate_connections` on connection records: fails with the
      `ValueError` of a time text that does not read. */
  function Deduplicate(cs: seq<TravelInformation>, now: Instant): (r: Result<seq<TravelInformation>, GatherError>)
    ensures r.Failure? <==> exists i :: 0 <= i < |cs| && (DepartureDt(cs[i], now).None? || ArrivalDt(cs[i], now).None?)
    ensures r.Failure? ==> r.error == MalformedTime
    ensures r.Success? ==> |r.value| <= |cs|
  {
    match Stamp(cs, now)
    case None => Failure(MalformedTime)
    case Some(ts) =>
      Success(Infos(DedupCore(ts)))
  }

  /** The grouping key of a connection record: its resolved departure and arrival. */
  function MatchTuple(c: TravelInformation, now: Instant): (Option<Instant>, Option<Instant>) {
    (DepartureDt(c, now), ArrivalDt(c, now))
  }

  /** Record-level reading of `Chosen`. */
  predicate ChosenRecord(cs: seq<TravelInformation>, now: Instant, p: int)
    requires 0 <= p < |cs|
  {
    if !cs[p].canceled then
      forall q :: 0 <= q < p && MatchTuple(cs[q], now) == MatchTuple(cs[p], now) ==> cs[q].canceled
    else
      (forall q :: 0 <= q < |cs| && MatchTuple(cs[q], now) == MatchTuple(cs[p], now) ==> cs[q].canceled)
      && (forall q :: 0 <= q < p ==> MatchTuple(cs[q], now) != MatchTuple(cs[p], now))
  }

  /** Two records share a match tuple exactly when their stamped forms share a key. */
  lemma StampKeys(cs: seq<TravelInformation>, now: Instant, q: int, p: int)
    requires Stamp(cs, now).Some?
    requires 0 <= q < |cs| && 0 <= p < |cs|
    ensures MatchTuple(cs[q], now) == MatchTuple(cs[p], now) <==>
      KeyOf(Stamp(cs, now).value[q]) == KeyOf(Stamp(cs, now).value[p])
  {
  }

  lemma ChosenRecordOfStamp(cs: seq<TravelInformation>, now: Instant, p: int)
    requires Stamp(cs, now).Some? && 0 <= p < |cs|
    requires Chosen(Stamp(cs, now).value, p)
    ensures ChosenRecord(cs, now, p)
  {
    var ts := Stamp(cs, now).value;
    forall q | 0 <= q < |cs| ensures MatchTuple(cs[q], now) == MatchTuple(cs[p], now) <==> KeyOf(ts[q]) == KeyOf(ts[p]) {
      StampKeys(cs, now, q, p);
    }
  }

  /** Every survivor is the connection its (departure, arrival) group chooses:
      the first live one, or the first one when the whole group is cancelled. */
  lemma DeduplicateChooses(cs: seq<TravelInformation>, now: Instant)
    requires Deduplicate(cs, now).Success?
    ensures forall i :: 0 <= i < |Deduplicate(cs, now).value| ==>
      exists p :: 0 <= p < |cs| && Deduplicate(cs, now).value[i] == cs[p] && ChosenRecord(cs, now, p)
  {
    var ts := Stamp(cs, now).value;
    var d := DedupCore(ts);
    var r := Infos(d);
    assert r == Deduplicate(cs, now).value;
    DedupCoreChosen(ts);
    forall i | 0 <= i < |r| ensures exists p :: 0 <= p < |cs| && r[i] == cs[p] && ChosenRecord(cs, now, p) {
      var p :| 0 <= p < |ts| && d[i] == ts[p] && Chosen(ts, p);
      ChosenRecordOfStamp(cs, now, p);
      assert r[i] == cs[p];
    }
  }

  /** No two survivors share a (departure, arrival) pair, and they are ordered by departure. */
  lemma DeduplicateDistinctSorted(cs: seq<TravelInformation>, now: Instant)
    requires Deduplicate(cs, now).Success?
    ensures var r := Deduplicate(cs, now).value;
      forall i :: 0 <= i < |r| ==> DepartureDt(r[i], now).Some? && ArrivalDt(r[i], now).Some?
    ensures var r := Deduplicate(cs, now).value;
      forall i, j :: 0 <= i < j < |r| ==> MatchTuple(r[i], now) != MatchTuple(r[j], now)
    ensures var r := Deduplicate(cs, now).value;
      forall i, j :: 0 <= i < j < |r| ==> Ticks(DepartureDt(r[i], now).value) <= Ticks(DepartureDt(r[j], now).value)
  {
    var ts := Stamp(cs, now).value;
    var d := DedupCore(ts);
    var r := Infos(d);
    assert r == Deduplicate(cs, now).value;
    forall i | 0 <= i < |r| ensures MatchTuple(r[i], now) == (Some(d[i].departure), Some(d[i].arrival)) {
      SurvivorTuple(cs, now, i);
    }
  }

  /** Every (departure, arrival) pair of the input is kept by some survivor. */
  lemma DeduplicateCovers(cs: seq<TravelInformation>, now: Instant)
    requires Deduplicate(cs, now).Success?
    ensures forall j :: 0 <= j < |cs| ==>
      (exists i :: 0 <= i < |Deduplicate(cs, now).value| && MatchTuple(Deduplicate(cs, now).value[i], now) == MatchTuple(cs[j], now))
  {
    var ts := Stamp(cs, now).value;
    var d := DedupCore(ts);
    var r := Infos(d);
    assert r == Deduplicate(cs, now).value;
    DedupCoreCovers(ts);
    forall j | 0 <= j < |cs| ensures exists i :: 0 <= i < |r| && MatchTuple(r[i], now) == MatchTuple(cs[j], now) {
      var i :| 0 <= i < |d| && KeyOf(d[i]) == KeyOf(ts[j]);
      SurvivorTuple(cs, now, i);
      assert MatchTuple(cs[j], now) == (Some(ts[j].departure), Some(ts[j].arrival));
    }
  }

  lemma SurvivorTuple(cs: seq<TravelInformation>, now: Instant, i: int)
    requires Stamp(cs, now).Some?
    requires 0 <= i < |DedupCore(Stamp(cs, now).value)|
    ensures var d := DedupCore(Stamp(cs, now).value);
      MatchTuple(Infos(d)[i], now) == (Some(d[i].departure), Some(d[i].arrival))
  {
    var ts := Stamp(cs, now).value;
    var d := DedupCore(ts);
    DedupCoreChosen(ts);
    var p :| 0 <= p < |ts| && d[i] == ts[p] && Chosen(ts, p);
  }

  /** Every survivor is one of the input connections. */
  lemma DeduplicateMembers(cs: seq<TravelInformation>, now: Instant)
    requires Deduplicate(cs, now).Success?
    ensures forall i :: 0 <= i < |Deduplicate(cs, now).value| ==> Deduplicate(cs, now).value[i] in cs
  {
    DeduplicateChooses(cs, now);
  }
}

=== FILE: extraction.dfy ===
/** Reading planned trips out of calendar entries: the configured expressions
    are tried on an entry's summary in order, the matching one names the
    origin and destination, and station names are rewritten through the
    configured mappings. */
module Extraction {
  import opened Wrappers
  import opened Text
  import opened Clock
  import opened Travel
  import opened Results

  /** The start or end of a calendar entry: a whole day, or a date-time. */
  datatype When = Date(day: int) | At(instant: Instant)

  /** `_force_convert_to_datetime`: a date-time stays as it is, a date becomes
      its local midnight. */
  function ForceConvert(w: When): (r: Instant)
    ensures w.At? ==> r == w.instant
    ensures w.Date? ==> r.day == w.day && forall t: Instant :: t.day == w.day ==> Ticks(r) <= Ticks(t)
  {
    match w
    case Date(day) => Midnight(day)
    case At(t) => t
  }

  /** Sorting by the converted start puts a whole-day entry before every timed
      entry of the same day and after every instant of the days before it. */
  lemma ForceConvertOrder(day: int, t: Instant)
    ensures t.day == day ==> Ticks(ForceConvert(Date(day))) <= Ticks(ForceConvert(At(t)))
    ensures t.day < day ==> Ticks(ForceConvert(At(t))) < Ticks(ForceConvert(Date(day)))
    ensures t.day > day ==> Ticks(ForceConvert(Date(day))) < Ticks(ForceConvert(At(t)))
  {
    TicksOrder(Midnight(day), t);
    TicksOrder(t, Midnight(day));
  }

  /** `CalendarEntryResult`. */
  datatype CalendarEntry = CalendarEntry(
    calendar: string,
    start: When,
    end: When,
    summary: string,
    description: Option<string>,
    location: Option<string>)

  /** Both ends are date-times: only such entries become trips. */
  predicate IsTimed(e: CalendarEntry) {
    e.start.At? && e.end.At?
  }

  /** What a successful `expr.match(summary)` offers: the named groups
      `origin` and `destination` (`None` when the expression has no such
      group or it took no part in the match) and all groups in order. */
  datatype Match = Match(origin: Option<string>, destination: Option<string>, groups: seq<Option<string>>)

  /** The expression engine, from outside the model: the match of an
      expression at the start of a summary, if any. */
  type Matcher = (string, string) -> Option<Match>

  /** `re.match(pattern, name)` for a station mapping's pattern. */
  type PrefixMatcher = (string, string) -> bool

  /** The position of the first mapping whose pattern matches `name`. */
  function FirstMapping(name: string, mappings: seq<(string, string)>, matches: PrefixMatcher): (i: Option<nat>)
    ensures i.Some? ==> i.value < |mappings| && matches(mappings[i.value].0, name)
    ensures i.Some? ==> forall j :: 0 <= j < i.value ==> !matches(mappings[j].0, name)
    ensures i.None? ==> forall j :: 0 <= j < |mappings| ==> !matches(mappings[j].0, name)
    decreases |mappings|
  {
    if |mappings| == 0 then None
    else if matches(mappings[0].0, name) then Some(0)
    else
      match FirstMapping(name, mappings[1..], matches)
      case None => None
      case Some(j) => Some(j + 1)
  }

  /** `_convert_destination`: the replacement of the first mapping whose
      pattern matches the stripped name, or the stripped name itself. */
  function ConvertDestination(name: string, mappings: seq<(string, string)>, matches: PrefixMatcher): (r: string)
    ensures (exists i :: 0 <= i < |mappings| && matches(mappings[i].0, Strip(name))) ==>
      exists i :: 0 <= i < |mappings| && matches(mappings[i].0, Strip(name)) && r == mappings[i].1 &&
        forall j :: 0 <= j < i ==> !matches(mappings[j].0, Strip(name))
    ensures (forall i :: 0 <= i < |mappings| ==> !matches(mappings[i].0, Strip(name))) ==> r == Strip(name)
  {
    var stripped := Strip(name);
    match FirstMapping(stripped, mappings, matches)
    case Some(i) => mappings[i].1
    case None => stripped
  }

  /** Without mappings a station name is only stripped, and stripping twice changes nothing. */
  lemma ConvertWithoutMappings(name: string, matches: PrefixMatcher)
    ensures ConvertDestination(name, [], matches) == Strip(name)
    ensures ConvertDestination(ConvertDestination(name, [], matches), [], matches) == ConvertDestination(name, [], matches)
  {
    StripIdempotent(name);
  }

  /** A group counts as given when it took part in the match and is not
      empty, which is when Python's `or` keeps it. */
  predicate Given(g: Option<string>) {
    g.Some? && g.value != ""
  }

  /** `groupdict.get("origin") or config.origin`: an absent or empty named group falls back. */
  function OriginOf(m: Match, configured: string): (r: string)
    ensures Given(m.origin) ==> r == m.origin.value
    ensures !Given(m.origin) ==> r == configured
  {
    if Given(m.origin) then m.origin.value else configured
  }

  /** `groupdict.get("destination") or match.groups()[-1]`: an absent or empty
      named group falls back to the last group, which may itself have taken no
      part in the match (`None`); an expression without groups raises
      `IndexError`. */
  function DestinationOf(m: Match): (r: Result<Option<string>, GatherError>)
    ensures Given(m.destination) ==> r == Success(m.destination)
    ensures !Given(m.destination) ==>
      (r.Failure? <==> |m.groups| == 0) && (r.Failure? ==> r.error == NoGroups) &&
      (r.Success? ==> r.value == m.groups[|m.groups| - 1])
  {
    if Given(m.destination) then Success(m.destination)
    else if |m.groups| == 0 then Failure(NoGroups)
    else Success(m.groups[|m.groups| - 1])
  }

  /** The parameters of trip extraction taken from the configuration. */
  datatype Extractor = Extractor(
    origin: string,
    expressions: seq<string>,
    mappings: seq<(string, string)>,
    matcher: Matcher,
    mapsTo: PrefixMatcher)

  /** What one matching expression makes of an entry: a trip when both ends are
      date-times (`None` — nothing yet — otherwise, so the search goes on),
      or the error its destination lookup raises. A missing destination text
      raises `AttributeError` only once it is converted, so only for timed entries. */
  function TripFrom(x: Extractor, e: CalendarEntry, m: Match): (r: Result<Option<PlannedTravelTime>, GatherError>)
    ensures r.Failure? <==> !Given(m.destination) && (|m.groups| == 0 || (IsTimed(e) && m.groups[|m.groups| - 1].None?))
    ensures r.Failure? && |m.groups| == 0 ==> r.error == NoGroups
    ensures r.Failure? && |m.groups| > 0 ==> r.error == NoDestinationText
    ensures r.Success? ==> (r.value.Some? <==> IsTimed(e))
    ensures r.Success? && r.value.Some? ==> r.value.value.start == e.start.instant && r.value.value.end == e.end.instant
    ensures r.Success? && r.value.Some? && Given(m.origin) ==>
      r.value.value.origin == ConvertDestination(m.origin.value, x.mappings, x.mapsTo)
    ensures r.Success? && r.value.Some? && !Given(m.origin) ==>
      r.value.value.origin == ConvertDestination(x.origin, x.mappings, x.mapsTo)
    ensures r.Success? && r.value.Some? && Given(m.destination) ==>
      r.value.value.destination == ConvertDestination(m.destination.value, x.mappings, x.mapsTo)
    ensures r.Success? && r.value.Some? && !Given(m.destination) ==>
      |m.groups| > 0 && m.groups[|m.groups| - 1].Some? &&
      r.value.value.destination == ConvertDestination(m.groups[|m.groups| - 1].value, x.mappings, x.mapsTo)
  {
    var destination :- DestinationOf(m);
    if IsTimed(e) then
      if destination.None? then Failure(NoDestinationText)
      else
        Success(Some(PlannedTravelTime(e.start.instant, e.end.instant,
          ConvertDestination(OriginOf(m, x.origin), x.mappings, x.mapsTo),
          ConvertDestination(destination.value, x.mappings, x.mapsTo))))
    else Success(None)
  }

  /** The position of the first expression that matches a summary. */
  function FirstMatch(x: Extractor, summary: string, from: nat): (i: Option<nat>)
    requires from <= |x.expressions|
    ensures i.Some? ==> from <= i.value < |x.expressions| && x.matcher(x.expressions[i.value], summary).Some?
    ensures i.Some? ==> forall j :: from <= j < i.value ==> x.matcher(x.expressions[j], summary).None?
    ensures i.None? ==> forall j :: from <= j < |x.expressions| ==> x.matcher(x.expressions[j], summary).None?
    decreases |x.expressions| - from
  {
    if from == |x.expressions| then None
    else if x.matcher(x.expressions[from], summary).Some? then Some(from)
    else FirstMatch(x, summary, from + 1)
  }

  /** Expression `i` matches the summary but its destination lookup raises. */
  predicate MatchFails(x: Extractor, summary: string, i: nat)
    requires i < |x.expressions|
  {
    x.matcher(x.expressions[i], summary).Some? && DestinationOf(x.matcher(x.expressions[i], summary).value).Failure?
  }

  /** The inner loop of `get_planned_travel_times` for one entry, from the
      expression at `from` on: each matching expression is handled in turn,
      and the search stops at the first trip (the `break`) or error. */
  function ExtractFrom(x: Extractor, e: CalendarEntry, from: nat): (r: Result<Option<PlannedTravelTime>, GatherError>)
    requires from <= |x.expressions|
    ensures IsTimed(e) ==>
      match FirstMatch(x, e.summary, from)
      case None => r == Success(None)
      case Some(i) => r == TripFrom(x, e, x.matcher(x.expressions[i], e.summary).value)
    ensures !IsTimed(e) ==>
      (r.Success? ==> r.value.None?) &&
      (r.Failure? <==> (exists i :: from <= i < |x.expressions| && MatchFails(x, e.summary, i)))
    decreases |x.expressions| - from
  {
    if from == |x.expressions| then Success(None)
    else
      match x.matcher(x.expressions[from], e.summary)
      case None => ExtractFrom(x, e, from + 1)
      case Some(m) =>
        match TripFrom(x, e, m)
        case Failure(error) =>
          assert !IsTimed(e) ==> MatchFails(x, e.summary, from);
          Failure(error)
        case Success(trip) => if trip.Some? then Success(trip) else ExtractFrom(x, e, from + 1)
  }

  /** The trip a timed entry yields comes from the first matching expression,
      starts and ends with the entry, and names the stations as that
      expression's groups say, rewritten through the mappings. */
  lemma TimedEntryTrip(x: Extractor, e: CalendarEntry)
    requires IsTimed(e)
    ensures var r := ExtractFrom(x, e, 0);
      r.Success? && r.value.Some? ==>
        exists i :: 0 <= i < |x.expressions| && x.matcher(x.expressions[i], e.summary).Some? &&
          (forall j :: 0 <= j < i ==> x.matcher(x.expressions[j], e.summary).None?) &&
          var m := x.matcher(x.expressions[i], e.summary).value;
          && r.value.value.start == e.start.instant && r.value.value.end == e.end.instant
          && r.value.value.origin == ConvertDestination(OriginOf(m, x.origin), x.mappings, x.mapsTo)
          && DestinationOf(m).Success? && DestinationOf(m).value.Some?
          && r.value.value.destination == ConvertDestination(DestinationOf(m).value.value, x.mappings, x.mapsTo)
    ensures ExtractFrom(x, e, 0) == Success(None) <==>
      forall i :: 0 <= i < |x.expressions| ==> x.matcher(x.expressions[i], e.summary).None?
  {
    var r := ExtractFrom(x, e, 0);
    match FirstMatch(x, e.summary, 0)
    case None =>
    case Some(i) =>
      var m := x.matcher(x.expressions[i], e.summary).value;
      assert r == TripFrom(x, e, m);
      if r.Success? {
        assert DestinationOf(m).Success? && DestinationOf(m).value.Some?;
      }
  }

  /** A whole-day entry never yields a trip. */
  lemma DateEntryNoTrip(x: Extractor, e: CalendarEntry)
    requires e.start.Date? || e.end.Date?
    ensures ExtractFrom(x, e, 0).Success? ==> ExtractFrom(x, e, 0).value.None?
  {
  }
}

=== FILE: gatherer.dfy ===
/** `DataGatherer`: from the configured calendars to the connections found
    for every trip they contain. The host (calendar states and events), the
    expression engine and the schedule source are parameters. */
module Gatherer {
  import opened Wrappers
  import opened Seqs
  import opened Clock
  import opened Travel
  import opened Dedup
  import opened Results
  import opened Extraction

  const DefaultDuration: int := 48
  const DefaultMaxResults: int := 5
  const DefaultRemoveDuplicates: bool := true
  const DefaultMappings: seq<(string, string)> := []

  /** The expressions tried on summaries unless configured otherwise. */
  const DefaultExpressions: seq<string> := [
    "Blocker[:]?[ ]*Travel[ ]*to(.+)",
    "Train[ ]*Travel[ ]*to(.+)",
    "Train[ ]*Travel[ ]*from(?P<origin>.+) to(?P<destination>.+)",
    "(?P<origin>.+)\U{2192}(?P<destination>.+)",
    "(?P<origin>.+)\U{279E}(?P<destination>.+)"
  ]

  /** `GathererConfig`. */
  datatype GathererConfig = GathererConfig(
    origin: string,
    calendars: seq<string>,
    scanDurationHours: int,
    expressions: seq<string>,
    mappings: seq<(string, string)>,
    maxResults: int,
    removeDuplicates: bool)

  /** A configuration that sets only the home station and the calendars. */
  function DefaultConfig(origin: string, calendars: seq<string>): GathererConfig {
    GathererConfig(origin, calendars, DefaultDuration, DefaultExpressions, DefaultMappings,
      DefaultMaxResults, DefaultRemoveDuplicates)
  }

  /** One event of a calendar's `get_events` answer. */
  datatype Event = Event(start: When, end: When, summary: string, description: Option<string>, location: Option<string>)

  /** Everything outside the model: the state of a calendar entity (`None`
      when it has none), the events a calendar answers with for the scanned
      period, the expression engine, and the schedule source's connection
      records for an origin, a destination and a start. */
  datatype Host = Host(
    stateOf: string -> Option<string>,
    eventsOf: string -> seq<Event>,
    matcher: Matcher,
    mapsTo: PrefixMatcher,
    connections: (string, string, Instant) -> seq<RawConnection>)

  /** A calendar that is asked for events: it has a state other than "unavailable". */
  predicate Available(h: Host, calendar: string) {
    h.stateOf(calendar).Some? && h.stateOf(calendar).value != "unavailable"
  }

  /** `CalendarEntryResult(calendar=calendar, **event_dict)`. */
  function EntryOf(calendar: string, ev: Event): CalendarEntry {
    CalendarEntry(calendar, ev.start, ev.end, ev.summary, ev.description, ev.location)
  }

  function EntriesOf(calendar: string, events: seq<Event>): (r: seq<CalendarEntry>)
    ensures |r| == |events|
    ensures forall i :: 0 <= i < |r| ==>
      r[i] == CalendarEntry(calendar, events[i].start, events[i].end, events[i].summary, events[i].description, events[i].location)
    decreases |events|
  {
    if |events| == 0 then [] else [EntryOf(calendar, events[0])] + EntriesOf(calendar, events[1..])
  }

  /** The entries of the available calendars, calendar by calendar. */
  function Gathered(h: Host, calendars: seq<string>): (r: seq<CalendarEntry>)
    ensures forall i :: 0 <= i < |r| ==> r[i].calendar in calendars && Available(h, r[i].calendar)
    decreases |calendars|
  {
    if |calendars| == 0 then []
    else
      (if Available(h, calendars[0]) then EntriesOf(calendars[0], h.eventsOf(calendars[0])) else [])
      + Gathered(h, calendars[1..])
  }

  /** Gathering over two lists of calendars is gathering over the first, then
      over the second. */
  lemma {:induction false} GatheredConcat(h: Host, a: seq<string>, b: seq<string>)
    ensures Gathered(h, a + b) == Gathered(h, a) + Gathered(h, b)
    decreases |a|
  {
    if |a| > 0 {
      assert (a + b)[0] == a[0] && (a + b)[1..] == a[1..] + b;
      GatheredConcat(h, a[1..], b);
    } else {
      assert a + b == b;
    }
  }

  /** One calendar contributes all of its events, in order, when it is
      available, and nothing otherwise. */
  lemma GatheredOne(h: Host, calendar: string)
    ensures Available(h, calendar) ==> Gathered(h, [calendar]) == EntriesOf(calendar, h.eventsOf(calendar))
    ensures !Available(h, calendar) ==> Gathered(h, [calendar]) == []
  {
    assert [calendar][1..] == [];
  }

  /** Every event of every available configured calendar is gathered. */
  lemma GatheredComplete(h: Host, calendars: seq<string>, c: int, e: int)
    requires 0 <= c < |calendars| && Available(h, calendars[c])
    requires 0 <= e < |h.eventsOf(calendars[c])|
    ensures EntryOf(calendars[c], h.eventsOf(calendars[c])[e]) in Gathered(h, calendars)
  {
    var cal := calendars[c];
    assert calendars == calendars[..c] + [cal] + calendars[c + 1..];
    GatheredConcat(h, calendars[..c] + [cal], calendars[c + 1..]);
    GatheredConcat(h, calendars[..c], [cal]);
    GatheredOne(h, cal);
    var mine := EntriesOf(cal, h.eventsOf(cal));
    assert mine[e] == EntryOf(cal, h.eventsOf(cal)[e]);
    assert mine[e] in Gathered(h, calendars[..c]) + mine + Gathered(h, calendars[c + 1..]);
  }

  /** The sort key of `_get_calendar_entries`: the start as a date-time. */
  function StartKey(e: CalendarEntry): int {
    Ticks(ForceConvert(e.start))
  }

  /** `_get_calendar_entries`. */
  function CalendarEntries(config: GathererConfig, h: Host): (r: seq<CalendarEntry>)
    ensures SortedBy(r, StartKey)
    ensures multiset(r) == multiset(Gathered(h, config.calendars))
  {
    SortBy(Gathered(h, config.calendars), StartKey)
  }

  /** Calendar entries come out ordered by start, only from available
      calendars, each event exactly once, and entries starting at the same
      moment keep the order of the calendars and of their events. */
  lemma CalendarEntriesSpec(config: GathererConfig, h: Host)
    ensures SortedBy(CalendarEntries(config, h), StartKey)
    ensures forall i :: 0 <= i < |CalendarEntries(config, h)| ==>
      CalendarEntries(config, h)[i].calendar in config.calendars && Available(h, CalendarEntries(config, h)[i].calendar)
    ensures multiset(CalendarEntries(config, h)) == multiset(Gathered(h, config.calendars))
    ensures forall v :: KeyClass(CalendarEntries(config, h), StartKey, v) == KeyClass(Gathered(h, config.calendars), StartKey, v)
  {
    var g := Gathered(h, config.calendars);
    var r := CalendarEntries(config, h);
    forall i | 0 <= i < |r| ensures r[i].calendar in config.calendars && Available(h, r[i].calendar) {
      SortMembers(g, StartKey, r[i]);
    }
  }

  /** A calendar without a usable state contributes nothing. */
  lemma {:induction false} UnavailableSkipped(h: Host, calendars: seq<string>)
    requires forall i :: 0 <= i < |calendars| ==> !Available(h, calendars[i]) || |h.eventsOf(calendars[i])| == 0
    ensures Gathered(h, calendars) == []
    decreases |calendars|
  {
    if |calendars| > 0 {
      UnavailableSkipped(h, calendars[1..]);
    }
  }

  /** `get_planned_travel_times` over entries in the order given: at most one
      trip per entry, and the first error raised stops the run. */
  function PlannedTravelTimes(x: Extractor, entries: seq<CalendarEntry>): (r: Result<seq<PlannedTravelTime>, GatherError>)
    ensures r.Success? ==> |r.value| <= |entries|
    ensures r.Success? ==> forall i :: 0 <= i < |r.value| ==> FromEntries(r.value[i], entries)
    ensures r.Failure? ==> exists i :: FirstFailure(ReadEntry(x), entries, i, r.error)
    decreases |entries|
  {
    if |entries| == 0 then Success([])
    else
      match ExtractFrom(x, entries[0], 0)
      case Failure(e) =>
        FirstFailureHead(ReadEntry(x), entries);
        Failure(e)
      case Success(trip) =>
      match PlannedTravelTimes(x, entries[1..])
      case Failure(e) =>
        FirstFailureShift(ReadEntry(x), entries, e);
        Failure(e)
      case Success(rest) =>
      if trip.Some? then
        TripOfTimedEntry(x, entries[0]);
        FromLaterEntries(entries, rest);
        assert FromEntries(trip.value, entries) by {
          assert ReadFrom(trip.value, entries[0]);
        }
        Success([trip.value] + rest)
      else
        FromLaterEntries(entries, rest);
        Success(rest)
  }

  /** A trip carries the start and end of the timed entry it was read from. */
  predicate ReadFrom(t: PlannedTravelTime, e: CalendarEntry) {
    IsTimed(e) && t.start == e.start.instant && t.end == e.end.instant
  }

  /** The trip was read from one of the entries. */
  predicate FromEntries(t: PlannedTravelTime, entries: seq<CalendarEntry>) {
    exists j :: 0 <= j < |entries| && ReadFrom(t, entries[j])
  }

  /** Trips read from the later entries were read from the entries. */
  lemma FromLaterEntries(entries: seq<CalendarEntry>, ts: seq<PlannedTravelTime>)
    requires |entries| >= 1
    requires forall i :: 0 <= i < |ts| ==> FromEntries(ts[i], entries[1..])
    ensures forall i :: 0 <= i < |ts| ==> FromEntries(ts[i], entries)
  {
    forall i | 0 <= i < |ts| ensures FromEntries(ts[i], entries) {
      var j :| 0 <= j < |entries[1..]| && ReadFrom(ts[i], entries[1..][j]);
      assert entries[1..][j] == entries[j + 1];
    }
  }

  lemma TripOfTimedEntry(x: Extractor, e: CalendarEntry)
    requires ExtractFrom(x, e, 0).Success? && ExtractFrom(x, e, 0).value.Some?
    ensures IsTimed(e)
    ensures ExtractFrom(x, e, 0).value.value.start == e.start.instant
    ensures ExtractFrom(x, e, 0).value.value.end == e.end.instant
  {
    if IsTimed(e) {
      TimedEntryTrip(x, e);
    } else {
      DateEntryNoTrip(x, e);
    }
  }

  function TripStart(t: PlannedTravelTime): int {
    Ticks(t.start)
  }

  /** One step of `PlannedTravelTimes`: the first entry's trip, if any, before the rest. */
  lemma PlannedCons(x: Extractor, entries: seq<CalendarEntry>)
    requires |entries| > 0 && PlannedTravelTimes(x, entries).Success?
    ensures ExtractFrom(x, entries[0], 0).Success? && PlannedTravelTimes(x, entries[1..]).Success?
    ensures var trip := ExtractFrom(x, entries[0], 0).value;
      var later := PlannedTravelTimes(x, entries[1..]).value;
      PlannedTravelTimes(x, entries).value == if trip.Some? then [trip.value] + later else later
  {
  }

  /** `idx` lists, in increasing order, the positions of `xs` at which `read`
      yields something, and `ys` holds exactly what it yields there: `read`
      succeeds everywhere, and yields something exactly at the listed positions. */
  predicate Yields<A, B(==), E(==)>(read: A -> Result<Option<B>, E>, xs: seq<A>, ys: seq<B>, idx: seq<int>) {
    && |idx| == |ys|
    && (forall k :: 0 <= k < |idx| ==> 0 <= idx[k] < |xs| && read(xs[idx[k]]) == Success(Some(ys[k])))
    && (forall k, l :: 0 <= k < l < |idx| ==> idx[k] < idx[l])
    && (forall i :: 0 <= i < |xs| ==> read(xs[i]).Success? && (read(xs[i]).value.Some? <==> i in idx))
  }

  function Shift(idx: seq<int>): (r: seq<int>)
    ensures |r| == |idx| && forall k :: 0 <= k < |r| ==> r[k] == idx[k] + 1
  {
    seq(|idx|, k requires 0 <= k < |idx| => idx[k] + 1)
  }

  /** Listing the later positions one further on. */
  lemma ShiftMembers(idx: seq<int>, i: int)
    ensures i in Shift(idx) <==> i - 1 in idx
  {
    if i in Shift(idx) {
      var k :| 0 <= k < |idx| && Shift(idx)[k] == i;
      assert idx[k] == i - 1;
    }
    if i - 1 in idx {
      var k :| 0 <= k < |idx| && idx[k] == i - 1;
      assert Shift(idx)[k] == i;
    }
  }

  /** The positions of one step of `Yields`: a 0 for the head when it
      yields, then the tail's positions moved up by one. */
  function StepIndices(hit: bool, idx0: seq<int>): (idx: seq<int>)
    ensures |idx| == |idx0| + (if hit then 1 else 0)
    ensures hit ==> idx[0] == 0
    ensures forall k :: (if hit then 1 else 0) <= k < |idx| ==> idx[k] == idx0[k - (if hit then 1 else 0)] + 1
  {
    (if hit then [0] else []) + Shift(idx0)
  }

  lemma StepIndicesIncrease(hit: bool, idx0: seq<int>)
    requires forall k :: 0 <= k < |idx0| ==> 0 <= idx0[k]
    requires forall k, l :: 0 <= k < l < |idx0| ==> idx0[k] < idx0[l]
    ensures var idx := StepIndices(hit, idx0); forall k, l :: 0 <= k < l < |idx| ==> idx[k] < idx[l]
  {
  }

  lemma StepIndicesMembers(hit: bool, idx0: seq<int>, i: int)
    requires forall k :: 0 <= k < |idx0| ==> 0 <= idx0[k]
    ensures i in StepIndices(hit, idx0) <==> (i == 0 && hit) || (i > 0 && i - 1 in idx0)
  {
    var sh := Shift(idx0);
    ShiftMembers(idx0, i);
    assert StepIndices(hit, idx0) == (if hit then [0] else []) + sh;
    assert 0 !in sh;
  }

  lemma YieldsStepValues<A, B, E>(read: A -> Result<Option<B>, E>, xs: seq<A>, y: Option<B>, ys: seq<B>, idx0: seq<int>)
    requires |xs| > 0 && read(xs[0]) == Success(y)
    requires |idx0| == |ys|
    requires forall k :: 0 <= k < |idx0| ==> 0 <= idx0[k] < |xs[1..]| && read(xs[1..][idx0[k]]) == Success(Some(ys[k]))
    ensures var idx := StepIndices(y.Some?, idx0); var out := if y.Some? then [y.value] + ys else ys;
      forall k :: 0 <= k < |idx| ==> 0 <= idx[k] < |xs| && read(xs[idx[k]]) == Success(Some(out[k]))
  {
    var out := if y.Some? then [y.value] + ys else ys;
    var idx := StepIndices(y.Some?, idx0);
    var d := if y.Some? then 1 else 0;
    forall k | 0 <= k < |idx| ensures 0 <= idx[k] < |xs| && read(xs[idx[k]]) == Success(Some(out[k])) {
      if k >= d {
        assert out[k] == ys[k - d];
        assert xs[idx[k]] == xs[1..][idx0[k - d]];
      }
    }
  }

  lemma YieldsStepMembers<A, B, E>(read: A -> Result<Option<B>, E>, xs: seq<A>, y: Option<B>, idx0: seq<int>)
    requires |xs| > 0 && read(xs[0]) == Success(y)
    requires forall k :: 0 <= k < |idx0| ==> 0 <= idx0[k]
    requires forall i :: 0 <= i < |xs[1..]| ==> read(xs[1..][i]).Success? && (read(xs[1..][i]).value.Some? <==> i in idx0)
    ensures forall i :: 0 <= i < |xs| ==>
      read(xs[i]).Success? && (read(xs[i]).value.Some? <==> i in StepIndices(y.Some?, idx0))
  {
    forall i | 0 <= i < |xs| ensures read(xs[i]).Success? && (read(xs[i]).value.Some? <==> i in StepIndices(y.Some?, idx0)) {
      StepIndicesMembers(y.Some?, idx0, i);
      if i > 0 {
        assert xs[i] == xs[1..][i - 1];
      }
    }
  }

  /** One step of `Yields`: what the head yields, if anything, comes first,
      and the positions in the tail move up by one. */
  lemma YieldsStep<A, B, E>(read: A -> Result<Option<B>, E>, xs: seq<A>, y: Option<B>, ys: seq<B>, idx0: seq<int>)
    requires |xs| > 0 && read(xs[0]) == Success(y)
    requires Yields(read, xs[1..], ys, idx0)
    ensures Yields(read, xs, if y.Some? then [y.value] + ys else ys, StepIndices(y.Some?, idx0))
  {
    YieldsStepValues(read, xs, y, ys, idx0);
    StepIndicesIncrease(y.Some?, idx0);
    YieldsStepMembers(read, xs, y, idx0);
  }

  /** `xs[i]` is the first element whose reading fails, and it fails with `e`:
      what a Python loop that raises out of its body reports. */
  predicate FirstFailure<A, B, E(==)>(read: A -> Result<B, E>, xs: seq<A>, i: int, e: E) {
    && 0 <= i < |xs|
    && read(xs[i]).Failure? && read(xs[i]).error == e
    && forall j :: 0 <= j < i ==> read(xs[j]).Success?
  }

  /** A first failure in the tail, behind a head that reads, is the first failure of the whole. */
  lemma FirstFailureShift<A, B, E>(read: A -> Result<B, E>, xs: seq<A>, e: E)
    requires |xs| >= 1 && read(xs[0]).Success?
    requires exists k :: FirstFailure(read, xs[1..], k, e)
    ensures exists i :: FirstFailure(read, xs, i, e)
  {
    var k :| FirstFailure(read, xs[1..], k, e);
    assert xs[1..][k] == xs[k + 1];
    forall j | 0 <= j < k + 1 ensures read(xs[j]).Success? {
      if j > 0 {
        assert xs[j] == xs[1..][j - 1];
      }
    }
    assert FirstFailure(read, xs, k + 1, e);
  }

  /** A head that fails is the first failure. */
  lemma FirstFailureHead<A, B, E>(read: A -> Result<B, E>, xs: seq<A>)
    requires |xs| >= 1 && read(xs[0]).Failure?
    ensures FirstFailure(read, xs, 0, read(xs[0]).error)
  {
  }

  /** Reading one entry with the configured expressions. */
  function ReadEntry(x: Extractor): CalendarEntry -> Result<Option<PlannedTravelTime>, GatherError> {
    (e: CalendarEntry) => ExtractFrom(x, e, 0)
  }

  /** `get_planned_travel_times` yields, in entry order, exactly the trips the
      entries yield one by one. */
  lemma {:induction false} PlannedIndices(x: Extractor, entries: seq<CalendarEntry>) returns (idx: seq<int>)
    requires PlannedTravelTimes(x, entries).Success?
    ensures Yields(ReadEntry(x), entries, PlannedTravelTimes(x, entries).value, idx)
    decreases |entries|
  {
    if |entries| == 0 {
      idx := [];
    } else {
      PlannedCons(x, entries);
      var idx0 := PlannedIndices(x, entries[1..]);
      var trip := ExtractFrom(x, entries[0], 0).value;
      YieldsStep(ReadEntry(x), entries, trip, PlannedTravelTimes(x, entries[1..]).value, idx0);
      idx := StepIndices(trip.Some?, idx0);
    }
  }

  /** The entry a trip was read from, found by its start. */
  lemma TripEntry(x: Extractor, entries: seq<CalendarEntry>, k: int) returns (j: int)
    requires PlannedTravelTimes(x, entries).Success?
    requires 0 <= k < |PlannedTravelTimes(x, entries).value|
    ensures 0 <= j < |entries| && TripStart(PlannedTravelTimes(x, entries).value[k]) == StartKey(entries[j])
  {
    var trips := PlannedTravelTimes(x, entries).value;
    assert FromEntries(trips[k], entries);
    j :| 0 <= j < |entries| && ReadFrom(trips[k], entries[j]);
  }

  /** Trips read from entries ordered by start are themselves ordered by start. */
  lemma {:induction false} PlannedTripsSorted(x: Extractor, entries: seq<CalendarEntry>)
    requires SortedBy(entries, StartKey)
    requires PlannedTravelTimes(x, entries).Success?
    ensures SortedBy(PlannedTravelTimes(x, entries).value, TripStart)
    decreases |entries|
  {
    if |entries| > 0 {
      var rest := entries[1..];
      PlannedCons(x, entries);
      assert SortedBy(rest, StartKey);
      PlannedTripsSorted(x, rest);
      var trip := ExtractFrom(x, entries[0], 0).value;
      var later := PlannedTravelTimes(x, rest).value;
      if trip.Some? {
        TripOfTimedEntry(x, entries[0]);
        assert TripStart(trip.value) == StartKey(entries[0]);
        forall k | 0 <= k < |later| ensures TripStart(trip.value) <= TripStart(later[k]) {
          var j := TripEntry(x, rest, k);
          assert entries[j + 1] == rest[j];
          assert StartKey(entries[0]) <= StartKey(entries[j + 1]);
        }
        SortedCons(trip.value, later, TripStart);
      }
    }
  }

  /** Whole-day entries never become trips. */
  lemma {:induction false} DateEntriesNoTrips(x: Extractor, entries: seq<CalendarEntry>)
    requires forall j :: 0 <= j < |entries| ==> !IsTimed(entries[j])
    requires PlannedTravelTimes(x, entries).Success?
    ensures PlannedTravelTimes(x, entries).value == []
    decreases |entries|
  {
    if |entries| > 0 {
      DateEntryNoTrip(x, entries[0]);
      DateEntriesNoTrips(x, entries[1..]);
    }
  }

  /** `[TravelInformation.from_dict(reference, conn) for conn in connections]`. */
  function FromDicts(reference: Instant, raws: seq<RawConnection>): (r: Result<seq<TravelInformation>, GatherError>)
    ensures r.Failure? <==> exists i :: 0 <= i < |raws| && raws[i].products.None?
    ensures r.Failure? ==> r.error == MissingProducts
    ensures r.Success? ==> |r.value| == |raws| && forall i :: 0 <= i < |raws| ==> FromDict(reference, raws[i]) == Success(r.value[i])
    ensures r.Success? ==> forall i :: 0 <= i < |r.value| ==> r.value[i].referenceTime == reference
    decreases |raws|
  {
    if |raws| == 0 then Success([])
    else
      var first :- FromDict(reference, raws[0]);
      var rest :- FromDicts(reference, raws[1..]);
      Success([first] + rest)
  }

  /** A connection that leaves at or after `start`. */
  predicate LeavesFrom(c: TravelInformation, start: Instant, now: Instant) {
    DepartureDt(c, now).Some? && Ticks(DepartureDt(c, now).value) >= Ticks(start)
  }

  function DepartsFrom(start: Instant, now: Instant): TravelInformation -> bool {
    (c: TravelInformation) => LeavesFrom(c, start, now)
  }

  /** `[conn for conn in ... if conn.departure_dt >= start]`: fails when a
      departure does not read, and otherwise keeps exactly the connections a
      filter on "leaves at or after the start" keeps. */
  function KeepFromStart(cs: seq<TravelInformation>, start: Instant, now: Instant): (r: Result<seq<TravelInformation>, GatherError>)
    ensures r.Failure? <==> exists i :: 0 <= i < |cs| && DepartureDt(cs[i], now).None?
    ensures r.Failure? ==> r.error == MalformedTime
    ensures r.Success? ==> r.value == Filter(cs, DepartsFrom(start, now))
    decreases |cs|
  {
    if |cs| == 0 then Success([])
    else
      match DepartureDt(cs[0], now)
      case None => Failure(MalformedTime)
      case Some(d) =>
        var rest :- KeepFromStart(cs[1..], start, now);
        assert DepartsFrom(start, now)(cs[0]) <==> Ticks(d) >= Ticks(start);
        Success(if Ticks(d) >= Ticks(start) then [cs[0]] + rest else rest)
  }

  /** The connections of a trip before truncation: read, kept from the
      planned start on, and deduplicated when so configured. */
  function Candidates(config: GathererConfig, h: Host, trip: PlannedTravelTime, now: Instant): (r: Result<seq<TravelInformation>, GatherError>)
    ensures r.Failure? ==> r.error == MissingProducts || r.error == MalformedTime
    ensures FromDicts(trip.start, h.connections(trip.origin, trip.destination, trip.start)).Failure? ==> r == Failure(MissingProducts)
    ensures !config.removeDuplicates ==>
      var infos := FromDicts(trip.start, h.connections(trip.origin, trip.destination, trip.start));
      (r.Success? <==> infos.Success? && forall i :: 0 <= i < |infos.value| ==> DepartureDt(infos.value[i], now).Some?) &&
      (r.Success? ==> r.value == Filter(infos.value, DepartsFrom(trip.start, now)))
  {
    var infos :- FromDicts(trip.start, h.connections(trip.origin, trip.destination, trip.start));
    var kept :- KeepFromStart(infos, trip.start, now);
    if config.removeDuplicates then Deduplicate(kept, now) else Success(kept)
  }

  /** The kept connections leave at or after the start and come from the input. */
  lemma KeptLeave(cs: seq<TravelInformation>, start: Instant, now: Instant)
    requires KeepFromStart(cs, start, now).Success?
    ensures var kept := KeepFromStart(cs, start, now).value;
      forall i :: 0 <= i < |kept| ==> LeavesFrom(kept[i], start, now) && kept[i] in cs
  {
    var keep := DepartsFrom(start, now);
    var kept := KeepFromStart(cs, start, now).value;
    assert kept == Filter(cs, keep);
    SubsequenceMembers(kept, cs);
    forall i | 0 <= i < |kept| ensures LeavesFrom(kept[i], start, now) {
      assert keep(kept[i]);
    }
  }

  /** `get_travel_times_of`. */
  function TravelTimesOf(config: GathererConfig, h: Host, trip: PlannedTravelTime, now: Instant): (r: Result<PossibleTravelTimes, GatherError>)
    ensures r.Success? <==> Candidates(config, h, trip, now).Success?
    ensures r.Success? ==> r.value.planned == trip
    ensures r.Success? ==>
      var all := Candidates(config, h, trip, now).value;
      |r.value.connections| <= |all| && r.value.connections == all[..|r.value.connections|]
    ensures r.Success? && config.maxResults >= 0 ==> |r.value.connections| <= config.maxResults
    ensures r.Success? && config.maxResults >= 0 ==>
      var all := Candidates(config, h, trip, now).value;
      |r.value.connections| == if config.maxResults < |all| then config.maxResults else |all|
    ensures r.Success? && config.maxResults < 0 ==>
      var all := Candidates(config, h, trip, now).value;
      |r.value.connections| == if |all| + config.maxResults > 0 then |all| + config.maxResults else 0
  {
    var all :- Candidates(config, h, trip, now);
    Success(PossibleTravelTimes(trip, Prefix(all, config.maxResults)))
  }

  /** Every candidate was read for the trip and leaves at or after its start. */
  lemma CandidatesLeave(config: GathererConfig, h: Host, trip: PlannedTravelTime, now: Instant)
    requires Candidates(config, h, trip, now).Success?
    ensures var all := Candidates(config, h, trip, now).value;
      forall i :: 0 <= i < |all| ==> LeavesFrom(all[i], trip.start, now) && all[i].referenceTime == trip.start
  {
    var infos := FromDicts(trip.start, h.connections(trip.origin, trip.destination, trip.start)).value;
    var kept := KeepFromStart(infos, trip.start, now).value;
    var all := Candidates(config, h, trip, now).value;
    KeptLeave(infos, trip.start, now);
    if config.removeDuplicates {
      assert all == Deduplicate(kept, now).value;
      DeduplicateMembers(kept, now);
    } else {
      assert all == kept;
    }
    LeaveThrough(all, kept, infos, trip.start, now);
  }

  /** Members of the kept connections inherit what holds of every kept one. */
  lemma LeaveThrough(all: seq<TravelInformation>, kept: seq<TravelInformation>, infos: seq<TravelInformation>, start: Instant, now: Instant)
    requires forall i :: 0 <= i < |all| ==> all[i] in kept
    requires forall i :: 0 <= i < |kept| ==> LeavesFrom(kept[i], start, now) && kept[i] in infos
    requires forall i :: 0 <= i < |infos| ==> infos[i].referenceTime == start
    ensures forall i :: 0 <= i < |all| ==> LeavesFrom(all[i], start, now) && all[i].referenceTime == start
  {
    forall i | 0 <= i < |all| ensures LeavesFrom(all[i], start, now) && all[i].referenceTime == start {
      var k :| 0 <= k < |kept| && kept[k] == all[i];
      var j :| 0 <= j < |infos| && infos[j] == kept[k];
    }
  }

  /** Every connection reported for a trip was read for that trip and leaves
      at or after its planned start. */
  lemma TravelTimesFromStart(config: GathererConfig, h: Host, trip: PlannedTravelTime, now: Instant)
    requires TravelTimesOf(config, h, trip, now).Success?
    ensures var cs := TravelTimesOf(config, h, trip, now).value.connections;
      forall i :: 0 <= i < |cs| ==> LeavesFrom(cs[i], trip.start, now) && cs[i].referenceTime == trip.start
  {
    CandidatesLeave(config, h, trip, now);
    var all := Candidates(config, h, trip, now).value;
    var cs := TravelTimesOf(config, h, trip, now).value.connections;
    assert forall i :: 0 <= i < |cs| ==> cs[i] == all[i];
  }

  /** Without deduplication the reported connections keep the order the
      schedule source gave them in. */
  lemma TravelTimesKeepOrder(config: GathererConfig, h: Host, trip: PlannedTravelTime, now: Instant)
    requires !config.removeDuplicates
    requires TravelTimesOf(config, h, trip, now).Success?
    ensures Subsequence(TravelTimesOf(config, h, trip, now).value.connections,
      FromDicts(trip.start, h.connections(trip.origin, trip.destination, trip.start)).value)
  {
    var infos := FromDicts(trip.start, h.connections(trip.origin, trip.destination, trip.start)).value;
    var kept := Filter(infos, DepartsFrom(trip.start, now));
    var cs := TravelTimesOf(config, h, trip, now).value.connections;
    assert cs == Prefix(kept, config.maxResults);
    PrefixIsSubsequence(kept, config.maxResults);
    SubsequenceTransitive(cs, kept, infos);
  }

  /** Distinct (departure, arrival) pairs, ordered by departure. */
  predicate DistinctByDeparture(cs: seq<TravelInformation>, now: Instant) {
    && (forall i :: 0 <= i < |cs| ==> DepartureDt(cs[i], now).Some?)
    && (forall i, j :: 0 <= i < j < |cs| ==> MatchTuple(cs[i], now) != MatchTuple(cs[j], now))
    && (forall i, j :: 0 <= i < j < |cs| ==> Ticks(DepartureDt(cs[i], now).value) <= Ticks(DepartureDt(cs[j], now).value))
  }

  lemma CandidatesDeduplicated(config: GathererConfig, h: Host, trip: PlannedTravelTime, now: Instant)
    requires config.removeDuplicates
    requires Candidates(config, h, trip, now).Success?
    ensures DistinctByDeparture(Candidates(config, h, trip, now).value, now)
  {
    var infos := FromDicts(trip.start, h.connections(trip.origin, trip.destination, trip.start)).value;
    var kept := KeepFromStart(infos, trip.start, now).value;
    assert Candidates(config, h, trip, now) == Deduplicate(kept, now);
    DeduplicateDistinctSorted(kept, now);
  }

  /** With deduplication the reported connections have distinct
      (departure, arrival) pairs and are ordered by departure. */
  lemma TravelTimesDeduplicated(config: GathererConfig, h: Host, trip: PlannedTravelTime, now: Instant)
    requires config.removeDuplicates
    requires TravelTimesOf(config, h, trip, now).Success?
    ensures var cs := TravelTimesOf(config, h, trip, now).value.connections;
      forall i, j :: 0 <= i < j < |cs| ==> MatchTuple(cs[i], now) != MatchTuple(cs[j], now)
    ensures var cs := TravelTimesOf(config, h, trip, now).value.connections;
      forall i, j :: 0 <= i < j < |cs| ==>
        DepartureDt(cs[i], now).Some? && DepartureDt(cs[j], now).Some? &&
        Ticks(DepartureDt(cs[i], now).value) <= Ticks(DepartureDt(cs[j], now).value)
  {
    CandidatesDeduplicated(config, h, trip, now);
    var all := Candidates(config, h, trip, now).value;
    var cs := TravelTimesOf(config, h, trip, now).value.connections;
    assert cs == all[..|cs|];
    forall i, j | 0 <= i < j < |cs|
      ensures MatchTuple(cs[i], now) != MatchTuple(cs[j], now)
      ensures DepartureDt(cs[i], now).Some? && DepartureDt(cs[j], now).Some?
      ensures Ticks(DepartureDt(cs[i], now).value) <= Ticks(DepartureDt(cs[j], now).value)
    {
      assert cs[i] == all[i] && cs[j] == all[j];
    }
  }

  /** The trips of a run, each resolved in turn; the first error stops the run. */
  function ResolveAll(config: GathererConfig, h: Host, trips: seq<PlannedTravelTime>, now: Instant): (r: Result<seq<PossibleTravelTimes>, GatherError>)
    ensures r.Success? ==> |r.value| == |trips|
    ensures r.Success? ==> forall i :: 0 <= i < |trips| ==> TravelTimesOf(config, h, trips[i], now) == Success(r.value[i])
    ensures r.Failure? ==> exists i :: FirstFailure(ReadTrip(config, h, now), trips, i, r.error)
    decreases |trips|
  {
    if |trips| == 0 then Success([])
    else
      match TravelTimesOf(config, h, trips[0], now)
      case Failure(e) =>
        FirstFailureHead(ReadTrip(config, h, now), trips);
        Failure(e)
      case Success(first) =>
      match ResolveAll(config, h, trips[1..], now)
      case Failure(e) =>
        FirstFailureShift(ReadTrip(config, h, now), trips, e);
        Failure(e)
      case Success(rest) => Success([first] + rest)
  }

  /** Resolving one trip. */
  function ReadTrip(config: GathererConfig, h: Host, now: Instant): PlannedTravelTime -> Result<PossibleTravelTimes, GatherError> {
    (t: PlannedTravelTime) => TravelTimesOf(config, h, t, now)
  }

  function ExtractorOf(config: GathererConfig, h: Host): Extractor {
    Extractor(config.origin, config.expressions, config.mappings, h.matcher, h.mapsTo)
  }

  /** `collect`: every trip of the ordered calendar entries with its connections. */
  function Collect(config: GathererConfig, h: Host, now: Instant): (r: Result<GathererResult, GatherError>)
    ensures var planned := PlannedTravelTimes(ExtractorOf(config, h), CalendarEntries(config, h));
      planned.Failure? ==> r == Failure(planned.error)
    ensures var planned := PlannedTravelTimes(ExtractorOf(config, h), CalendarEntries(config, h));
      r.Success? ==>
        && planned.Success?
        && |r.value.travelTimes| == |planned.value|
        && forall i :: 0 <= i < |planned.value| ==>
             r.value.travelTimes[i].planned == planned.value[i] &&
             TravelTimesOf(config, h, planned.value[i], now) == Success(r.value.travelTimes[i])
    ensures var planned := PlannedTravelTimes(ExtractorOf(config, h), CalendarEntries(config, h));
      r.Failure? && planned.Success? ==>
        exists i :: FirstFailure(ReadTrip(config, h, now), planned.value, i, r.error)
  {
    var trips :- PlannedTravelTimes(ExtractorOf(config, h), CalendarEntries(config, h));
    var times :- ResolveAll(config, h, trips, now);
    Success(GathererResult(times))
  }

  /** A run reports its trips in order of planned start, each with at most
      `max_results` connections that all leave at or after its start. */
  lemma CollectSpec(config: GathererConfig, h: Host, now: Instant)
    ensures var c := Collect(config, h, now); c.Success? ==>
      var tt := c.value.travelTimes;
      forall i, j :: 0 <= i < j < |tt| ==> Ticks(tt[i].planned.start) <= Ticks(tt[j].planned.start)
    ensures var c := Collect(config, h, now); c.Success? ==>
      var tt := c.value.travelTimes;
      forall i :: 0 <= i < |tt| ==> config.maxResults >= 0 ==> |tt[i].connections| <= config.maxResults
    ensures var c := Collect(config, h, now); c.Success? ==>
      var tt := c.value.travelTimes;
      forall i, k :: 0 <= i < |tt| && 0 <= k < |tt[i].connections| ==> LeavesFrom(tt[i].connections[k], tt[i].planned.start, now)
    ensures var c := Collect(config, h, now); c.Success? ==>
      var tt := c.value.travelTimes;
      forall i :: 0 <= i < |tt| ==> config.maxResults >= 0 ==>
        && Candidates(config, h, tt[i].planned, now).Success?
        && var n := |Candidates(config, h, tt[i].planned, now).value|;
           |tt[i].connections| == if config.maxResults < n then config.maxResults else n
  {
    if Collect(config, h, now).Success? {
      CollectedTrips(config, h, now);
    }
  }

  /** `CollectSpec` for a run that succeeds. */
  lemma CollectedTrips(config: GathererConfig, h: Host, now: Instant)
    requires Collect(config, h, now).Success?
    ensures var tt := Collect(config, h, now).value.travelTimes;
      forall i, j :: 0 <= i < j < |tt| ==> Ticks(tt[i].planned.start) <= Ticks(tt[j].planned.start)
    ensures var tt := Collect(config, h, now).value.travelTimes;
      forall i :: 0 <= i < |tt| ==> config.maxResults >= 0 ==> |tt[i].connections| <= config.maxResults
    ensures var tt := Collect(config, h, now).value.travelTimes;
      forall i, k :: 0 <= i < |tt| && 0 <= k < |tt[i].connections| ==> LeavesFrom(tt[i].connections[k], tt[i].planned.start, now)
    ensures var tt := Collect(config, h, now).value.travelTimes;
      forall i :: 0 <= i < |tt| ==> config.maxResults >= 0 ==>
        && Candidates(config, h, tt[i].planned, now).Success?
        && var n := |Candidates(config, h, tt[i].planned, now).value|;
           |tt[i].connections| == if config.maxResults < n then config.maxResults else n
  {
    var x := ExtractorOf(config, h);
    var entries := CalendarEntries(config, h);
    CalendarEntriesSpec(config, h);
    PlannedTripsSorted(x, entries);
    var trips := PlannedTravelTimes(x, entries).value;
    var tt := ResolveAll(config, h, trips, now).value;
    forall i | 0 <= i < |tt| ensures tt[i].planned == trips[i] {
      assert TravelTimesOf(config, h, trips[i], now) == Success(tt[i]);
    }
    forall i, j | 0 <= i < j < |tt| ensures Ticks(tt[i].planned.start) <= Ticks(tt[j].planned.start) {
      assert TripStart(trips[i]) <= TripStart(trips[j]);
    }
    forall i, k | 0 <= i < |tt| && 0 <= k < |tt[i].connections|
      ensures LeavesFrom(tt[i].connections[k], tt[i].planned.start, now)
    {
      assert TravelTimesOf(config, h, trips[i], now) == Success(tt[i]);
      TravelTimesFromStart(config, h, trips[i], now);
    }
  }

  /** Calendars that are unavailable or have no events give an empty result. */
  lemma NothingPlanned(config: GathererConfig, h: Host, now: Instant)
    requires forall i :: 0 <= i < |config.calendars| ==>
      !Available(h, config.calendars[i]) || |h.eventsOf(config.calendars[i])| == 0
    ensures Collect(config, h, now) == Success(GathererResult([]))
    ensures !Collect(config, h, now).value.Exists()
  {
    UnavailableSkipped(h, config.calendars);
  }
}

=== FILE: results.dfy ===
/** The values a gathering run reports: one `PossibleTravelTimes` per planned
    trip, and the `GathererResult` that presents the first trip to the sensor. */
module Results {
  import opened Wrappers
  import opened Clock
  import opened Travel

  /** A trip found in a calendar: when it starts and ends, and between which stations. */
  datatype PlannedTravelTime = PlannedTravelTime(start: Instant, end: Instant, origin: string, destination: string)

  /** The first connection of a trip, or the one after it — the pairs of
      properties `start`/`next_start`, `end`/`next_end` and so on. */
  datatype Which = First | Next {
    function Index(): nat {
      if First? then 0 else 1
    }
  }

  /** A planned trip with the connections found for it, best first. */
  datatype PossibleTravelTimes = PossibleTravelTimes(planned: PlannedTravelTime, connections: seq<TravelInformation>) {
    function Origin(): string {
      planned.origin
    }

    function Destination(): string {
      planned.destination
    }

    /** The connection a property reads, if there are enough of them. */
    function Slot(w: Which): Option<TravelInformation> {
      if w.Index() < |connections| then Some(connections[w.Index()]) else None
    }

    /** `start_string` / `next_start_string`. */
    function DepartureString(w: Which): string {
      if Slot(w).Some? then Slot(w).value.departure else NoTime
    }

    /** `end_string` / `next_end_string`. */
    function ArrivalString(w: Which): string {
      if Slot(w).Some? then Slot(w).value.arrival else NoTime
    }

    /** `time` / `next_time`. */
    function Time(w: Which): string {
      if Slot(w).Some? then Slot(w).value.time else NoTime
    }

    /** `departure_delay` / `next_departure_delay`. */
    function DepartureDelay(w: Which): int {
      if Slot(w).Some? then Slot(w).value.departureDelay else 0
    }

    /** `arrival_delay` / `next_arrival_delay`. */
    function ArrivalDelay(w: Which): int {
      if Slot(w).Some? then Slot(w).value.arrivalDelay else 0
    }

    /** `ontime` / `next_ontime`. */
    function Ontime(w: Which): bool {
      if Slot(w).Some? then Slot(w).value.ontime else true
    }

    /** `canceled` / `next_canceled`. */
    function Canceled(w: Which): bool {
      if Slot(w).Some? then Slot(w).value.canceled else false
    }

    /** `transfers` / `next_transfers`; a connection read without a transfer
        count reports `None`. */
    function Transfers(w: Which): Option<int> {
      if Slot(w).Some? then Slot(w).value.transfers else Some(0)
    }

    /** `products` / `next_products`. */
    function Products(w: Which): seq<string> {
      if Slot(w).Some? then Slot(w).value.products else []
    }

    /** `start` / `next_start`: the resolved departure of the connection; with
        no connection at all `start` is the planned start and `next_start` is
        `None`. A departure that does not read fails as `ValueError` does. */
    function Start(w: Which, now: Instant): Result<Option<Instant>, GatherError> {
      match Slot(w)
      case None => Success(if w.First? then Some(planned.start) else None)
      case Some(c) =>
        match DepartureDt(c, now)
        case None => Failure(MalformedTime)
        case Some(t) => Success(Some(t))
    }

    /** `end` / `next_end`, in the same way from the arrival. */
    function End(w: Which, now: Instant): Result<Option<Instant>, GatherError> {
      match Slot(w)
      case None => Success(if w.First? then Some(planned.end) else None)
      case Some(c) =>
        match ArrivalDt(c, now)
        case None => Failure(MalformedTime)
        case Some(t) => Success(Some(t))
    }
  }

  /** A property that has its connection reports that connection's own value. */
  lemma SlotReadsConnection(p: PossibleTravelTimes, w: Which)
    requires w.Index() < |p.connections|
    ensures var c := p.connections[w.Index()];
      && p.DepartureString(w) == c.departure && p.ArrivalString(w) == c.arrival && p.Time(w) == c.time
      && p.DepartureDelay(w) == c.departureDelay && p.ArrivalDelay(w) == c.arrivalDelay
      && p.Ontime(w) == c.ontime && p.Canceled(w) == c.canceled
      && p.Transfers(w) == c.transfers && p.Products(w) == c.products
  {
  }

  /** A property without its connection reports what a connection read from a
      record holding nothing but an empty product list would report, except
      that the transfer count is 0 rather than absent. */
  lemma MissingSlotReadsAsDefaults(p: PossibleTravelTimes, w: Which, reference: Instant)
    requires |p.connections| <= w.Index()
    ensures var d := FromDict(reference, RawConnection(None, None, None, None, None, None, Some([]), None, None, None));
      && d.Success?
      && p.DepartureString(w) == d.value.departure && p.ArrivalString(w) == d.value.arrival
      && p.Time(w) == d.value.time
      && p.DepartureDelay(w) == d.value.departureDelay && p.ArrivalDelay(w) == d.value.arrivalDelay
      && p.Ontime(w) == d.value.ontime && p.Canceled(w) == d.value.canceled
      && p.Products(w) == d.value.products
      && p.Transfers(w) == Some(0) && d.value.transfers == None
  {
    FromDictDefaults(reference, []);
  }

  /** `start` and `end` resolve the first connection's times, and fall back
      to the planned trip's times only when there is no connection. */
  lemma StartEndOfFirst(p: PossibleTravelTimes, now: Instant)
    ensures |p.connections| == 0 ==>
      p.Start(First, now) == Success(Some(p.planned.start)) && p.End(First, now) == Success(Some(p.planned.end))
    ensures |p.connections| > 0 ==>
      (p.Start(First, now).Success? <==> DepartureDt(p.connections[0], now).Some?) &&
      (p.Start(First, now).Success? ==> p.Start(First, now).value == DepartureDt(p.connections[0], now))
    ensures |p.connections| > 0 ==>
      (p.End(First, now).Success? <==> ArrivalDt(p.connections[0], now).Some?) &&
      (p.End(First, now).Success? ==> p.End(First, now).value == ArrivalDt(p.connections[0], now))
  {
  }

  /** `next_start` and `next_end` are absent exactly when there is no second connection. */
  lemma NextStartEnd(p: PossibleTravelTimes, now: Instant)
    ensures p.Start(Next, now) == Success(None) <==> |p.connections| < 2
    ensures p.End(Next, now) == Success(None) <==> |p.connections| < 2
    ensures |p.connections| >= 2 && p.Start(Next, now).Success? ==> p.Start(Next, now).value == DepartureDt(p.connections[1], now)
    ensures |p.connections| >= 2 && p.End(Next, now).Success? ==> p.End(Next, now).value == ArrivalDt(p.connections[1], now)
  {
  }

  /** What one gathering run found: a trip per planned calendar entry. */
  datatype GathererResult = GathererResult(travelTimes: seq<PossibleTravelTimes>) {
    predicate Exists() {
      |travelTimes| > 0
    }

    /** `connection`: the trip the sensor shows. */
    function Connection(): Option<PossibleTravelTimes> {
      if |travelTimes| == 0 then None else Some(travelTimes[0])
    }

    /** `next_connection`: the trip after it. */
    function NextConnection(): Option<PossibleTravelTimes> {
      if |travelTimes| < 2 then None else Some(travelTimes[1])
    }

    function Origin(): Option<string> {
      if |travelTimes| == 0 then None else Some(travelTimes[0].Origin())
    }

    function Destination(): Option<string> {
      if |travelTimes| == 0 then None else Some(travelTimes[0].Destination())
    }

    /** `start` / `next_start` of the first trip; `None` without a trip. */
    function Start(w: Which, now: Instant): Result<Option<Instant>, GatherError> {
      if |travelTimes| == 0 then Success(None) else travelTimes[0].Start(w, now)
    }

    /** `end` / `next_end` of the first trip; `None` without a trip. */
    function End(w: Which, now: Instant): Result<Option<Instant>, GatherError> {
      if |travelTimes| == 0 then Success(None) else travelTimes[0].End(w, now)
    }

    function DepartureString(w: Which): Option<string> {
      if |travelTimes| == 0 then None else Some(travelTimes[0].DepartureString(w))
    }

    function ArrivalString(w: Which): Option<string> {
      if |travelTimes| == 0 then None else Some(travelTimes[0].ArrivalString(w))
    }

    function Time(w: Which): Option<string> {
      if |travelTimes| == 0 then None else Some(travelTimes[0].Time(w))
    }

    function DepartureDelay(w: Which): int {
      if |travelTimes| == 0 then 0 else travelTimes[0].DepartureDelay(w)
    }

    function ArrivalDelay(w: Which): int {
      if |travelTimes| == 0 then 0 else travelTimes[0].ArrivalDelay(w)
    }

    function Products(w: Which): seq<string> {
      if |travelTimes| == 0 then [] else travelTimes[0].Products(w)
    }

    function Ontime(w: Which): bool {
      if |travelTimes| == 0 then true else travelTimes[0].Ontime(w)
    }

    function Canceled(w: Which): bool {
      if |travelTimes| == 0 then false else travelTimes[0].Canceled(w)
    }
  }

  /** A run that found no trip reports nothing: no stations, no times, no
      delay, no product, on time and not cancelled. */
  lemma EmptyResultDefaults(w: Which, now: Instant)
    ensures var g := GathererResult([]);
      && !g.Exists() && g.Connection().None? && g.NextConnection().None?
      && g.Origin().None? && g.Destination().None?
      && g.Start(w, now) == Success(None) && g.End(w, now) == Success(None)
      && g.DepartureString(w).None? && g.ArrivalString(w).None? && g.Time(w).None?
      && g.DepartureDelay(w) == 0 && g.ArrivalDelay(w) == 0 && g.Products(w) == []
      && g.Ontime(w) && !g.Canceled(w)
  {
  }

  /** A run with a trip reports the first trip in every property, so a trip
      without connections still shows its planned start and end. */
  lemma ResultShowsFirstTrip(g: GathererResult, w: Which, now: Instant)
    requires g.Exists()
    ensures g.Connection() == Some(g.travelTimes[0])
    ensures g.Origin() == Some(g.travelTimes[0].planned.origin)
    ensures g.Destination() == Some(g.travelTimes[0].planned.destination)
    ensures g.Start(w, now) == g.travelTimes[0].Start(w, now)
    ensures g.End(w, now) == g.travelTimes[0].End(w, now)
    ensures |g.travelTimes[0].connections| == 0 ==>
      g.Start(First, now) == Success(Some(g.travelTimes[0].planned.start)) &&
      g.DepartureString(w) == Some(NoTime) && !g.Canceled(w) && g.Ontime(w)
    ensures g.NextConnection().Some? <==> |g.travelTimes| >= 2
  {
  }
}

=== FILE: scenarios.dfy ===
/** Whole runs of `collect` on the situations the repository's tests set up:
    one calendar with one timed event, and a schedule source that answers
    with two connections. */
module Scenarios {
  import opened Wrappers
  import opened Text
  import opened Seqs
  import opened Clock
  import opened Travel
  import opened Dedup
  import opened Results
  import opened Extraction
  import opened Gatherer

  const Calendar: string := "calendar.xyz"

  /** The connection records of both tests. */
  function Raw(departure: string, arrival: string): RawConnection {
    RawConnection(Some(departure), Some(arrival), Some(true), Some(0), Some("2:06"), Some("103.3"),
      Some(["ICE"]), None, Some(false), Some("http://temp123"))
  }

  function At(day: int, minute: int): Instant
    requires 0 <= minute < MinutesPerDay
  {
    DateTime(day, minute, 0)
  }

  /** A host with the one calendar, the one event and the two connections
      between the stations the summary names. */
  predicate TestHost(h: Host, day: int, summary: string, origin: string, destination: string) {
    && h.stateOf(Calendar) == Some("on")
    && h.eventsOf(Calendar) == [Event(When.At(At(day, 18 * 60 + 14)), When.At(At(day, 20 * 60 + 20)), summary, None, None)]
    && h.connections(origin, destination, At(day, 18 * 60 + 14)) == [Raw("18:14", "20:20"), Raw("18:20", "21:20")]
  }

  lemma ClockTexts()
    ensures ParseClock("18:14") == Some(18 * 60 + 14)
    ensures ParseClock("18:20") == Some(18 * 60 + 20)
    ensures ParseClock("20:20") == Some(20 * 60 + 20)
    ensures ParseClock("21:20") == Some(21 * 60 + 20)
  {
    assert "18:14"[..2] == "18" && "18:14"[3..] == "14";
    assert "18:20"[..2] == "18" && "18:20"[3..] == "20";
    assert "20:20"[..2] == "20" && "20:20"[3..] == "20";
    assert "21:20"[..2] == "21" && "21:20"[3..] == "20";
  }

  /** Every time of the answer lies after the start and more than an hour
      before midnight, so it stays on the day of the event whatever the
      current time. */
  lemma Resolved(day: int, now: Instant, text: string, minute: int)
    requires 18 * 60 + 14 <= minute && minute + 60 < MinutesPerDay
    requires ParseClock(text) == Some(minute)
    ensures NormalizeAsWritten(At(day, 18 * 60 + 14), now, text) == Some(At(day, minute))
  {
  }

  /** Both records of the answer read, and resolve to their times on the day of the event. */
  lemma AnswerRead(day: int, now: Instant)
    ensures var reference := At(day, 18 * 60 + 14);
      && FromDicts(reference, [Raw("18:14", "20:20"), Raw("18:20", "21:20")])
        == Success([FromDict(reference, Raw("18:14", "20:20")).value, FromDict(reference, Raw("18:20", "21:20")).value])
    ensures var i1 := FromDict(At(day, 18 * 60 + 14), Raw("18:14", "20:20")).value;
      DepartureDt(i1, now) == Some(At(day, 18 * 60 + 14)) && ArrivalDt(i1, now) == Some(At(day, 20 * 60 + 20))
    ensures var i2 := FromDict(At(day, 18 * 60 + 14), Raw("18:20", "21:20")).value;
      DepartureDt(i2, now) == Some(At(day, 18 * 60 + 20)) && ArrivalDt(i2, now) == Some(At(day, 21 * 60 + 20))
  {
    var reference := At(day, 18 * 60 + 14);
    ClockTexts();
    Resolved(day, now, "18:14", 18 * 60 + 14);
    Resolved(day, now, "20:20", 20 * 60 + 20);
    Resolved(day, now, "18:20", 18 * 60 + 20);
    Resolved(day, now, "21:20", 21 * 60 + 20);
    var raws := [Raw("18:14", "20:20"), Raw("18:20", "21:20")];
    var r := FromDicts(reference, raws);
    assert raws[0].products.Some? && raws[1].products.Some?;
    assert r.Success?;
    assert FromDict(reference, raws[0]) == Success(r.value[0]);
    assert FromDict(reference, raws[1]) == Success(r.value[1]);
    assert |r.value| == 2;
    assert r.value == [r.value[0], r.value[1]];
  }

  /** Two connections that both leave after the start are both kept. */
  lemma KeepBoth(i1: TravelInformation, i2: TravelInformation, start: Instant, now: Instant)
    requires LeavesFrom(i1, start, now) && LeavesFrom(i2, start, now)
    ensures KeepFromStart([i1, i2], start, now) == Success([i1, i2])
  {
    assert [i1, i2][1..] == [i2];
    var d := DepartureDt(i2, now).value;
    assert Ticks(d) >= Ticks(start);
    assert [i2][1..] == [];
    assert KeepFromStart([], start, now) == Success([]);
    assert [i2] + [] == [i2];
    assert KeepFromStart([i2], start, now) == Success([i2]);
    var d1 := DepartureDt(i1, now).value;
    assert Ticks(d1) >= Ticks(start);
    assert [i1] + [i2] == [i1, i2];
  }

  lemma DistinctKeysPair(t1: Timed, t2: Timed)
    requires KeyOf(t1) != KeyOf(t2)
    ensures DistinctKeys([t1, t2]) == [KeyOf(t1), KeyOf(t2)]
  {
    assert [t1, t2][..1] == [t1];
    assert DistinctKeys([t1]) == [KeyOf(t1)] by {
      assert [t1][..0] == [];
    }
  }

  lemma PickPair(t1: Timed, t2: Timed)
    requires KeyOf(t1) != KeyOf(t2)
    ensures KeyOf(t1) in KeySet([t1, t2]) && KeyOf(t2) in KeySet([t1, t2])
    ensures Pick([t1, t2], KeyOf(t1)) == 0
    ensures Pick([t1, t2], KeyOf(t2)) == 1
  {
    var ts := [t1, t2];
    assert KeyOf(ts[0]) == KeyOf(t1);
    assert KeyOf(ts[1]) == KeyOf(t2);
  }

  /** Two connections with different times, in departure order, are both kept. */
  lemma DedupPair(t1: Timed, t2: Timed)
    requires KeyOf(t1) != KeyOf(t2) && DepartureTicks(t1) <= DepartureTicks(t2)
    ensures DedupCore([t1, t2]) == [t1, t2]
  {
    var ts := [t1, t2];
    DistinctKeysPair(t1, t2);
    PickPair(t1, t2);
    var reps := Representatives(ts, DistinctKeys(ts));
    assert reps == [reps[0], reps[1]];
    SortSorted(ts, DepartureTicks);
  }

  lemma StampPair(i1: TravelInformation, i2: TravelInformation, now: Instant)
    requires DepartureDt(i1, now).Some? && ArrivalDt(i1, now).Some?
    requires DepartureDt(i2, now).Some? && ArrivalDt(i2, now).Some?
    ensures Stamp([i1, i2], now) == Some([
      Timed(i1, DepartureDt(i1, now).value, ArrivalDt(i1, now).value),
      Timed(i2, DepartureDt(i2, now).value, ArrivalDt(i2, now).value)])
  {
    var r := Stamp([i1, i2], now);
    assert r.Some?;
    assert |r.value| == 2;
    assert r.value == [r.value[0], r.value[1]];
  }

  lemma InfosPair(t1: Timed, t2: Timed)
    ensures Infos([t1, t2]) == [t1.info, t2.info]
  {
    var r := Infos([t1, t2]);
    assert r == [r[0], r[1]];
  }

  lemma DeduplicatePair(i1: TravelInformation, i2: TravelInformation, now: Instant)
    requires DepartureDt(i1, now).Some? && ArrivalDt(i1, now).Some?
    requires DepartureDt(i2, now).Some? && ArrivalDt(i2, now).Some?
    requires DepartureDt(i1, now) != DepartureDt(i2, now)
    requires Ticks(DepartureDt(i1, now).value) <= Ticks(DepartureDt(i2, now).value)
    ensures Deduplicate([i1, i2], now) == Success([i1, i2])
  {
    var t1 := Timed(i1, DepartureDt(i1, now).value, ArrivalDt(i1, now).value);
    var t2 := Timed(i2, DepartureDt(i2, now).value, ArrivalDt(i2, now).value);
    StampPair(i1, i2, now);
    DedupPair(t1, t2);
    InfosPair(t1, t2);
  }

  /** The run for the trip the summary names, once the trip is read. */
  lemma ConnectionsOfTrip(config: GathererConfig, h: Host, day: int, summary: string, trip: PlannedTravelTime, now: Instant)
    requires config == DefaultConfig("Hamburg Hbf", [Calendar])
    requires TestHost(h, day, summary, trip.origin, trip.destination)
    requires trip.start == At(day, 18 * 60 + 14)
    ensures var r := TravelTimesOf(config, h, trip, now);
      && r.Success? && |r.value.connections| == 2
      && DepartureDt(r.value.connections[0], now) == Some(At(day, 18 * 60 + 14))
      && ArrivalDt(r.value.connections[0], now) == Some(At(day, 20 * 60 + 20))
      && DepartureDt(r.value.connections[1], now) == Some(At(day, 18 * 60 + 20))
      && ArrivalDt(r.value.connections[1], now) == Some(At(day, 21 * 60 + 20))
  {
    var reference := trip.start;
    AnswerRead(day, now);
    var i1 := FromDict(reference, Raw("18:14", "20:20")).value;
    var i2 := FromDict(reference, Raw("18:20", "21:20")).value;
    KeepBoth(i1, i2, reference, now);
    DeduplicatePair(i1, i2, now);
    assert Candidates(config, h, trip, now) == Success([i1, i2]);
    assert Prefix([i1, i2], config.maxResults) == [i1, i2];
  }

  /** A timed entry whose first matching expression is `i` becomes the trip
      that expression's match names, when there are no mappings. */
  lemma TripOfMatch(x: Extractor, e: CalendarEntry, i: nat, m: Match, destination: string)
    requires IsTimed(e) && x.mappings == []
    requires i < |x.expressions|
    requires forall j :: 0 <= j < i ==> x.matcher(x.expressions[j], e.summary).None?
    requires x.matcher(x.expressions[i], e.summary) == Some(m)
    requires DestinationOf(m) == Success(Some(destination))
    ensures ExtractFrom(x, e, 0) ==
      Success(Some(PlannedTravelTime(e.start.instant, e.end.instant, Strip(OriginOf(m, x.origin)), Strip(destination))))
  {
    var k := FirstMatch(x, e.summary, 0);
    assert k == Some(i);
    ConvertWithoutMappings(OriginOf(m, x.origin), x.mapsTo);
    ConvertWithoutMappings(destination, x.mapsTo);
  }

  lemma ArrowNames()
    ensures Strip("Berlin Hbf ") == "Berlin Hbf" && Strip(" Hamburg Hbf") == "Hamburg Hbf"
  {
    StripPadded("", "Berlin Hbf", " ");
    assert "" + "Berlin Hbf" + " " == "Berlin Hbf ";
    StripPadded(" ", "Hamburg Hbf", "");
    assert " " + "Hamburg Hbf" + "" == " Hamburg Hbf";
  }

  lemma HomeName()
    ensures Strip("Hamburg Hbf") == "Hamburg Hbf"
  {
    TrimmedIsFixpoint("Hamburg Hbf");
  }

  lemma DestinationOnlyNames()
    ensures Strip("Hamburg Hbf") == "Hamburg Hbf" && Strip(" D\U{FC}sseldorf Hbf") == "D\U{FC}sseldorf Hbf"
  {
    HomeName();
    StripPadded(" ", "D\U{FC}sseldorf Hbf", "");
    assert " " + "D\U{FC}sseldorf Hbf" + "" == " D\U{FC}sseldorf Hbf";
  }

  /** "Berlin Hbf → Hamburg Hbf" names both stations: the run reports the
      trip between them with the first connection and the next one. */
  lemma ArrowSummary(h: Host, day: int, now: Instant)
    requires TestHost(h, day, "Berlin Hbf \U{2192} Hamburg Hbf", "Berlin Hbf", "Hamburg Hbf")
    requires forall k :: 0 <= k < 3 ==> h.matcher(DefaultExpressions[k], "Berlin Hbf \U{2192} Hamburg Hbf").None?
    requires h.matcher(DefaultExpressions[3], "Berlin Hbf \U{2192} Hamburg Hbf") ==
      Some(Match(Some("Berlin Hbf "), Some(" Hamburg Hbf"), [Some("Berlin Hbf "), Some(" Hamburg Hbf")]))
    ensures var r := Collect(DefaultConfig("Hamburg Hbf", [Calendar]), h, now);
      && r.Success? && r.value.Exists()
      && r.value.Origin() == Some("Berlin Hbf") && r.value.Destination() == Some("Hamburg Hbf")
      && r.value.Start(First, now) == Success(Some(At(day, 18 * 60 + 14)))
      && r.value.End(First, now) == Success(Some(At(day, 20 * 60 + 20)))
      && r.value.Start(Next, now) == Success(Some(At(day, 18 * 60 + 20)))
      && r.value.End(Next, now) == Success(Some(At(day, 21 * 60 + 20)))
  {
    var summary := "Berlin Hbf \U{2192} Hamburg Hbf";
    var config := DefaultConfig("Hamburg Hbf", [Calendar]);
    ArrowNames();
    var trip := PlannedTravelTime(At(day, 18 * 60 + 14), At(day, 20 * 60 + 20), "Berlin Hbf", "Hamburg Hbf");
    var m := Match(Some("Berlin Hbf "), Some(" Hamburg Hbf"), [Some("Berlin Hbf "), Some(" Hamburg Hbf")]);
    var entry := CalendarEntry(Calendar, When.At(trip.start), When.At(trip.end), summary, None, None);
    TripOfMatch(ExtractorOf(config, h), entry, 3, m, " Hamburg Hbf");
    RunOf(config, h, day, summary, trip, now);
  }

  /** "Train travel to Düsseldorf Hbf" names only the destination: the trip
      starts at the home station. */
  lemma DestinationOnlySummary(h: Host, day: int, now: Instant)
    requires TestHost(h, day, "Train travel to D\U{FC}sseldorf Hbf", "Hamburg Hbf", "D\U{FC}sseldorf Hbf")
    requires h.matcher(DefaultExpressions[0], "Train travel to D\U{FC}sseldorf Hbf").None?
    requires h.matcher(DefaultExpressions[1], "Train travel to D\U{FC}sseldorf Hbf") ==
      Some(Match(None, None, [Some(" D\U{FC}sseldorf Hbf")]))
    ensures var r := Collect(DefaultConfig("Hamburg Hbf", [Calendar]), h, now);
      && r.Success? && r.value.Exists()
      && r.value.Origin() == Some("Hamburg Hbf") && r.value.Destination() == Some("D\U{FC}sseldorf Hbf")
      && r.value.Start(First, now) == Success(Some(At(day, 18 * 60 + 14)))
      && r.value.End(First, now) == Success(Some(At(day, 20 * 60 + 20)))
      && r.value.Start(Next, now) == Success(Some(At(day, 18 * 60 + 20)))
      && r.value.End(Next, now) == Success(Some(At(day, 21 * 60 + 20)))
  {
    var summary := "Train travel to D\U{FC}sseldorf Hbf";
    var config := DefaultConfig("Hamburg Hbf", [Calendar]);
    DestinationOnlyNames();
    var trip := PlannedTravelTime(At(day, 18 * 60 + 14), At(day, 20 * 60 + 20), "Hamburg Hbf", "D\U{FC}sseldorf Hbf");
    var m := Match(None, None, [Some(" D\U{FC}sseldorf Hbf")]);
    var entry := CalendarEntry(Calendar, When.At(trip.start), When.At(trip.end), summary, None, None);
    TripOfMatch(ExtractorOf(config, h), entry, 1, m, " D\U{FC}sseldorf Hbf");
    RunOf(config, h, day, summary, trip, now);
  }

  /** The one event is the one calendar entry. */
  lemma EntriesOfRun(config: GathererConfig, h: Host, day: int, summary: string, trip: PlannedTravelTime)
    requires config == DefaultConfig("Hamburg Hbf", [Calendar])
    requires TestHost(h, day, summary, trip.origin, trip.destination)
    requires trip.start == At(day, 18 * 60 + 14) && trip.end == At(day, 20 * 60 + 20)
    ensures CalendarEntries(config, h) == [CalendarEntry(Calendar, When.At(trip.start), When.At(trip.end), summary, None, None)]
  {
    var entry := CalendarEntry(Calendar, When.At(trip.start), When.At(trip.end), summary, None, None);
    var events := h.eventsOf(Calendar);
    assert EntriesOf(Calendar, events) == [entry] by {
      assert events[1..] == [];
      assert EntriesOf(Calendar, events[1..]) == [];
    }
    assert Gathered(h, config.calendars) == [entry] by {
      assert config.calendars[1..] == [];
      assert Gathered(h, config.calendars[1..]) == [];
      assert [entry] + [] == [entry];
    }
    SortSorted([entry], StartKey);
  }

  /** An entry that reads as a trip is the one trip planned. */
  lemma PlannedOne(x: Extractor, entry: CalendarEntry, trip: PlannedTravelTime)
    requires ExtractFrom(x, entry, 0) == Success(Some(trip))
    ensures PlannedTravelTimes(x, [entry]) == Success([trip])
  {
    assert [entry][1..] == [];
    assert PlannedTravelTimes(x, []) == Success([]);
    assert [trip] + [] == [trip];
  }

  /** One trip whose connections are found resolves to them alone. */
  lemma ResolveOne(config: GathererConfig, h: Host, trip: PlannedTravelTime, now: Instant)
    requires TravelTimesOf(config, h, trip, now).Success?
    ensures ResolveAll(config, h, [trip], now) == Success([TravelTimesOf(config, h, trip, now).value])
  {
    var r := ResolveAll(config, h, [trip], now);
    assert r.Success?;
    assert |r.value| == 1;
    assert r.value == [r.value[0]];
  }

  /** A run whose one entry reads as `trip` reports it with both connections. */
  lemma RunOf(config: GathererConfig, h: Host, day: int, summary: string, trip: PlannedTravelTime, now: Instant)
    requires config == DefaultConfig("Hamburg Hbf", [Calendar])
    requires TestHost(h, day, summary, trip.origin, trip.destination)
    requires trip.start == At(day, 18 * 60 + 14) && trip.end == At(day, 20 * 60 + 20)
    requires ExtractFrom(ExtractorOf(config, h), CalendarEntry(Calendar, When.At(trip.start), When.At(trip.end), summary, None, None), 0)
      == Success(Some(trip))
    ensures var r := Collect(config, h, now);
      && r.Success? && r.value.Exists()
      && r.value.Origin() == Some(trip.origin) && r.value.Destination() == Some(trip.destination)
      && r.value.Start(First, now) == Success(Some(At(day, 18 * 60 + 14)))
      && r.value.End(First, now) == Success(Some(At(day, 20 * 60 + 20)))
      && r.value.Start(Next, now) == Success(Some(At(day, 18 * 60 + 20)))
      && r.value.End(Next, now) == Success(Some(At(day, 21 * 60 + 20)))
  {
    var entry := CalendarEntry(Calendar, When.At(trip.start), When.At(trip.end), summary, None, None);
    EntriesOfRun(config, h, day, summary, trip);
    PlannedOne(ExtractorOf(config, h), entry, trip);
    ConnectionsOfTrip(config, h, day, summary, trip, now);
    ResolveOne(config, h, trip, now);
    var p := TravelTimesOf(config, h, trip, now).value;
    assert Collect(config, h, now) == Success(GathererResult([p]));
  }
}

=== FILE: seqs.dfy ===
/** Sequence operations the pipeline is built from: list-comprehension
    filtering, Python's prefix slice `s[:n]`, and the stable `sorted(s, key=...)`. */
module Seqs {

  /** `sub` can be obtained from `s` by deleting elements, keeping the order of the rest. */
  ghost predicate Subsequence<T>(sub: seq<T>, s: seq<T>)
    decreases |s|
  {
    |sub| == 0 || (|s| > 0 && ((sub[0] == s[0] && Subsequence(sub[1..], s[1..])) || Subsequence(sub, s[1..])))
  }

  lemma {:induction false} SubsequenceOfPrefix<T>(sub: seq<T>, s: seq<T>, k: nat)
    requires Subsequence(sub, s) && k <= |sub|
    ensures Subsequence(sub[..k], s)
    decreases |s|
  {
    if k > 0 {
      if sub[0] == s[0] && Subsequence(sub[1..], s[1..]) {
        SubsequenceOfPrefix(sub[1..], s[1..], k - 1);
        assert sub[..k][1..] == sub[1..][..k - 1];
      } else {
        SubsequenceOfPrefix(sub, s[1..], k);
      }
    }
  }

  lemma {:induction false} SubsequenceTransitive<T>(a: seq<T>, b: seq<T>, c: seq<T>)
    requires Subsequence(a, b) && Subsequence(b, c)
    ensures Subsequence(a, c)
    decreases |c|
  {
    if |a| > 0 {
      if b[0] == c[0] && Subsequence(b[1..], c[1..]) {
        if a[0] == b[0] && Subsequence(a[1..], b[1..]) {
          SubsequenceTransitive(a[1..], b[1..], c[1..]);
        } else {
          SubsequenceTransitive(a, b[1..], c[1..]);
        }
      } else {
        SubsequenceTransitive(a, b, c[1..]);
      }
    }
  }

  lemma {:induction false} SubsequenceMembers<T>(sub: seq<T>, s: seq<T>)
    requires Subsequence(sub, s)
    ensures forall x :: x in sub ==> x in s
    decreases |s|
  {
    if |sub| > 0 {
      if sub[0] == s[0] && Subsequence(sub[1..], s[1..]) {
        SubsequenceMembers(sub[1..], s[1..]);
        assert forall x :: x in sub ==> x == sub[0] || x in sub[1..];
      } else {
        SubsequenceMembers(sub, s[1..]);
      }
    }
  }

  /** `[x for x in s if keep(x)]`: the elements that pass, each as often as in
      `s`, in their original order. */
  function Filter<T(!new)>(s: seq<T>, keep: T -> bool): (r: seq<T>)
    ensures forall i :: 0 <= i < |r| ==> keep(r[i])
    ensures forall x :: multiset(r)[x] == if keep(x) then multiset(s)[x] else 0
    ensures Subsequence(r, s)
    decreases |s|
  {
    if |s| == 0 then []
    else
      var rest := Filter(s[1..], keep);
      assert s == [s[0]] + s[1..];
      if keep(s[0]) then
        var r := [s[0]] + rest;
        assert r[1..] == rest;
        r
      else
        rest
  }

  lemma {:induction false} FilterAll<T(!new)>(s: seq<T>, keep: T -> bool)
    requires forall i :: 0 <= i < |s| ==> keep(s[i])
    ensures Filter(s, keep) == s
    decreases |s|
  {
    if |s| > 0 {
      FilterAll(s[1..], keep);
    }
  }

  /** Python's `s[:n]`: the first `n` elements, or for a negative `n` all but the last `-n`. */
  function Prefix<T>(s: seq<T>, n: int): (r: seq<T>)
    ensures n >= 0 ==> |r| == if n < |s| then n else |s|
    ensures n < 0 ==> |r| == if |s| + n > 0 then |s| + n else 0
    ensures |r| <= |s| && r == s[..|r|]
  {
    if n >= 0 then (if n < |s| then s[..n] else s)
    else (if |s| + n > 0 then s[..|s| + n] else [])
  }

  lemma PrefixIsSubsequence<T>(s: seq<T>, n: int)
    ensures Subsequence(Prefix(s, n), s)
  {
    SubsequenceOfSelf(s);
    SubsequenceOfPrefix(s, s, |Prefix(s, n)|);
  }

  lemma {:induction false} SubsequenceOfSelf<T>(s: seq<T>)
    ensures Subsequence(s, s)
    decreases |s|
  {
    if |s| > 0 {
      SubsequenceOfSelf(s[1..]);
    }
  }

  predicate SortedBy<T>(s: seq<T>, key: T -> int) {
    forall i, j :: 0 <= i < j < |s| ==> key(s[i]) <= key(s[j])
  }

  /** The elements of `s` whose key is `v`, in order. */
  function KeyClass<T>(s: seq<T>, key: T -> int, v: int): seq<T>
    decreases |s|
  {
    if |s| == 0 then []
    else (if key(s[0]) == v then [s[0]] else []) + KeyClass(s[1..], key, v)
  }

  lemma {:induction false} KeyClassFront<T>(x: T, s: seq<T>, key: T -> int, v: int)
    ensures KeyClass([x] + s, key, v) == (if key(x) == v then [x] else []) + KeyClass(s, key, v)
  {
    assert ([x] + s)[1..] == s;
  }

  /** Puts `x` in front of the first element whose key is not smaller. */
  function Insert<T>(x: T, s: seq<T>, key: T -> int): (r: seq<T>)
    requires SortedBy(s, key)
    ensures SortedBy(r, key)
    ensures multiset(r) == multiset(s) + multiset{x}
    ensures |r| == |s| + 1
    ensures forall v :: KeyClass(r, key, v) == (if key(x) == v then [x] else []) + KeyClass(s, key, v)
    decreases |s|
  {
    if |s| == 0 || key(x) <= key(s[0]) then
      InsertFront(x, s, key);
      [x] + s
    else
      var rest := Insert(x, s[1..], key);
      assert s == [s[0]] + s[1..];
      InsertStep(s[0], x, s[1..], rest, key);
      [s[0]] + rest
  }

  /** `x` goes in front when no element sorts before it. */
  lemma InsertFront<T>(x: T, s: seq<T>, key: T -> int)
    requires SortedBy(s, key)
    requires |s| == 0 || key(x) <= key(s[0])
    ensures SortedBy([x] + s, key)
    ensures forall v :: KeyClass([x] + s, key, v) == (if key(x) == v then [x] else []) + KeyClass(s, key, v)
  {
    forall v ensures KeyClass([x] + s, key, v) == (if key(x) == v then [x] else []) + KeyClass(s, key, v) {
      KeyClassFront(x, s, key, v);
    }
    forall j | 0 <= j < |s| ensures key(x) <= key(s[j]) {
      assert key(s[0]) <= key(s[j]);
    }
    SortedCons(x, s, key);
  }

  /** Putting `a` back in front of the tail with `x` inserted keeps the order,
      as `a` sorts before `x` and before the rest of the tail. */
  lemma InsertStep<T>(a: T, x: T, tail: seq<T>, rest: seq<T>, key: T -> int)
    requires SortedBy([a] + tail, key) && SortedBy(rest, key)
    requires key(a) < key(x)
    requires multiset(rest) == multiset(tail) + multiset{x}
    requires forall v :: KeyClass(rest, key, v) == (if key(x) == v then [x] else []) + KeyClass(tail, key, v)
    ensures SortedBy([a] + rest, key)
    ensures forall v :: KeyClass([a] + rest, key, v) == (if key(x) == v then [x] else []) + KeyClass([a] + tail, key, v)
  {
    forall v ensures KeyClass([a] + rest, key, v) == (if key(x) == v then [x] else []) + KeyClass([a] + tail, key, v) {
      KeyClassFront(a, rest, key, v);
      KeyClassFront(a, tail, key, v);
    }
    forall j | 0 <= j < |rest| ensures key(a) <= key(rest[j]) {
      assert rest[j] in multiset(rest);
      if rest[j] != x {
        assert rest[j] in multiset(tail);
        var k :| 0 <= k < |tail| && tail[k] == rest[j];
        assert ([a] + tail)[0] == a && ([a] + tail)[k + 1] == tail[k];
        assert key(a) <= key(tail[k]);
      } else {
        assert key(rest[j]) == key(x);
      }
    }
    SortedCons(a, rest, key);
  }

  /** An element no larger than everything after it extends a sorted sequence. */
  lemma SortedCons<T>(x: T, s: seq<T>, key: T -> int)
    requires SortedBy(s, key)
    requires forall j :: 0 <= j < |s| ==> key(x) <= key(s[j])
    ensures SortedBy([x] + s, key)
  {
    var r := [x] + s;
    forall i, j | 0 <= i < j < |r| ensures key(r[i]) <= key(r[j]) {
      if i == 0 {
        assert r[j] == s[j - 1];
      } else {
        assert r[i] == s[i - 1] && r[j] == s[j - 1];
      }
    }
  }

  /** Python's `sorted(s, key=key)`: ascending by key, and stable — elements
      with equal keys keep their relative order, so each key class is unchanged. */
  function SortBy<T>(s: seq<T>, key: T -> int): (r: seq<T>)
    ensures SortedBy(r, key)
    ensures multiset(r) == multiset(s)
    ensures |r| == |s|
    ensures forall v :: KeyClass(r, key, v) == KeyClass(s, key, v)
    decreases |s|
  {
    if |s| == 0 then []
    else
      var r := Insert(s[0], SortBy(s[1..], key), key);
      assert s == [s[0]] + s[1..];
      forall v ensures KeyClass(r, key, v) == KeyClass(s, key, v) {
        KeyClassFront(s[0], s[1..], key, v);
      }
      r
  }

  /** Sorting neither adds nor drops an element. */
  lemma SortMembers<T>(s: seq<T>, key: T -> int, x: T)
    ensures x in SortBy(s, key) <==> x in s
  {
    assert x in SortBy(s, key) <==> x in multiset(SortBy(s, key));
    assert x in s <==> x in multiset(s);
  }

  /** An already sorted sequence is left as it is. */
  lemma {:induction false} SortSorted<T>(s: seq<T>, key: T -> int)
    requires SortedBy(s, key)
    ensures SortBy(s, key) == s
    decreases |s|
  {
    if |s| > 0 {
      SortSorted(s[1..], key);
      assert SortBy(s[1..], key) == s[1..];
    }
  }
}

=== FILE: text.dfy ===
/** The handful of Python `str` operations the plugin relies on:
    `strip()`, `split(sep)`, `sep.join(parts)` and `int(text)`. */
module Text {
  import opened Wrappers

  /** Python's `str.isspace()` for a single character: the ASCII controls
      TAB..CR and FS..US, SPACE, NEL, NBSP and the Unicode space separators. */
  predicate IsSpace(c: char) {
    || ('\t' <= c <= '\r')
    || ('\U{1C}' <= c <= '\U{1F}')
    || c == ' '
    || c == '\U{85}'
    || c == '\U{A0}'
    || c == '\U{1680}'
    || ('\U{2000}' <= c <= '\U{200A}')
    || c == '\U{2028}'
    || c == '\U{2029}'
    || c == '\U{202F}'
    || c == '\U{205F}'
    || c == '\U{3000}'
  }

  predicate AllSpace(s: string) {
    forall k :: 0 <= k < |s| ==> IsSpace(s[k])
  }

  /** A string that `strip()` leaves as it is: empty, or no white space at either end. */
  predicate Trimmed(s: string) {
    |s| == 0 || (!IsSpace(s[0]) && !IsSpace(s[|s| - 1]))
  }

  /** `str.lstrip()`. */
  function TrimLeft(s: string): (r: string)
    ensures |r| <= |s|
    ensures |r| > 0 ==> !IsSpace(r[0])
    decreases |s|
  {
    if |s| > 0 && IsSpace(s[0]) then TrimLeft(s[1..]) else s
  }

  /** `str.rstrip()`. */
  function TrimRight(s: string): (r: string)
    ensures |r| <= |s|
    ensures |r| > 0 ==> !IsSpace(r[|r| - 1]) && r[0] == s[0]
    decreases |s|
  {
    if |s| > 0 && IsSpace(s[|s| - 1]) then TrimRight(s[..|s| - 1]) else s
  }

  /** `str.strip()`: no white space is left at either end. */
  function Strip(s: string): (r: string)
    ensures Trimmed(r)
    ensures |r| <= |s|
  {
    TrimRight(TrimLeft(s))
  }

  lemma TrimmedIsFixpoint(s: string)
    requires Trimmed(s)
    ensures Strip(s) == s
  {
  }

  lemma {:induction false} TrimLeftPadded(w: string, s: string)
    requires AllSpace(w)
    requires |s| == 0 || !IsSpace(s[0])
    ensures TrimLeft(w + s) == s
    decreases |w|
  {
    if |w| == 0 {
      assert w + s == s;
    } else {
      assert (w + s)[1..] == w[1..] + s;
      TrimLeftPadded(w[1..], s);
    }
  }

  lemma {:induction false} TrimRightPadded(s: string, w: string)
    requires AllSpace(w)
    requires |s| == 0 || !IsSpace(s[|s| - 1])
    ensures TrimRight(s + w) == s
    decreases |w|
  {
    if |w| == 0 {
      assert s + w == s;
    } else {
      assert (s + w)[..|s + w| - 1] == s + w[..|w| - 1];
      TrimRightPadded(s, w[..|w| - 1]);
    }
  }

  /** Stripping removes exactly the surrounding white space of a trimmed core. */
  lemma StripPadded(w1: string, s: string, w2: string)
    requires AllSpace(w1) && AllSpace(w2)
    requires |s| > 0 && Trimmed(s)
    ensures Strip(w1 + s + w2) == s
  {
    assert w1 + s + w2 == w1 + (s + w2);
    TrimLeftPadded(w1, s + w2);
    TrimRightPadded(s, w2);
  }

  /** `strip()` is idempotent. */
  lemma StripIdempotent(s: string)
    ensures Strip(Strip(s)) == Strip(s)
  {
  }

  /** `sep.join(parts)`. */
  function Join(parts: seq<string>, sep: char): string
    decreases |parts|
  {
    if |parts| == 0 then ""
    else if |parts| == 1 then parts[0]
    else parts[0] + [sep] + Join(parts[1..], sep)
  }

  /** `s.split(sep)` for a one-character separator: the pieces between the
      separators, so that joining them again gives back `s`. */
  function Split(s: string, sep: char): (parts: seq<string>)
    ensures |parts| >= 1
    ensures forall i :: 0 <= i < |parts| ==> sep !in parts[i]
    ensures Join(parts, sep) == s
    decreases |s|
  {
    if |s| == 0 then [""]
    else
      var rest := Split(s[1..], sep);
      if s[0] == sep then
        assert s == [sep] + Join(rest, sep);
        [""] + rest
      else
        var parts := [[s[0]] + rest[0]] + rest[1..];
        assert parts[1..] == rest[1..];
        parts
  }

  lemma {:induction false} SplitNoSeparator(s: string, sep: char)
    requires sep !in s
    ensures Split(s, sep) == [s]
    decreases |s|
  {
    if |s| > 0 {
      SplitNoSeparator(s[1..], sep);
      assert [s[0]] + s[1..] == s;
    }
  }

  lemma {:induction false} SplitAfterPiece(a: string, sep: char, b: string)
    requires sep !in a
    ensures Split(a + [sep] + b, sep) == [a] + Split(b, sep)
    decreases |a|
  {
    var s := a + [sep] + b;
    if |a| == 0 {
      assert s[0] == sep && s[1..] == b;
    } else {
      assert s[0] == a[0];
      assert s[1..] == a[1..] + [sep] + b;
      SplitAfterPiece(a[1..], sep, b);
      assert [a[0]] + a[1..] == a;
    }
  }

  /** Splitting undoes joining when no part contains the separator. */
  lemma {:induction false} SplitJoin(parts: seq<string>, sep: char)
    requires |parts| >= 1
    requires forall i :: 0 <= i < |parts| ==> sep !in parts[i]
    ensures Split(Join(parts, sep), sep) == parts
    decreases |parts|
  {
    if |parts| == 1 {
      SplitNoSeparator(parts[0], sep);
    } else {
      SplitJoin(parts[1..], sep);
      SplitAfterPiece(parts[0], sep, Join(parts[1..], sep));
      assert [parts[0]] + parts[1..] == parts;
    }
  }

  predicate IsDigit(c: char) {
    '0' <= c <= '9'
  }

  function DigitValue(c: char): (d: nat)
    requires IsDigit(c)
    ensures d < 10
  {
    c as int - '0' as int
  }

  function DigitChar(d: nat): (c: char)
    requires d < 10
    ensures IsDigit(c) && DigitValue(c) == d
  {
    (d + '0' as int) as char
  }

  predicate AllDigits(s: string) {
    forall k :: 0 <= k < |s| ==> IsDigit(s[k])
  }

  /** The value of a string of decimal digits, most significant first. */
  function DigitsValue(s: string): (n: nat)
    requires AllDigits(s)
    ensures |s| == 0 ==> n == 0
    decreases |s|
  {
    if |s| == 0 then 0 else DigitsValue(s[..|s| - 1]) * 10 + DigitValue(s[|s| - 1])
  }

  /** The decimal text of a natural number, without leading zeros. */
  function NatToString(n: nat): (s: string)
    ensures |s| >= 1 && AllDigits(s)
    ensures s[0] != '0' || n == 0
    decreases n
  {
    if n < 10 then [DigitChar(n)] else NatToString(n / 10) + [DigitChar(n % 10)]
  }

  lemma {:induction false} NatToStringValue(n: nat)
    ensures DigitsValue(NatToString(n)) == n
    decreases n
  {
    var s := NatToString(n);
    if n >= 10 {
      NatToStringValue(n / 10);
      assert s[..|s| - 1] == NatToString(n / 10);
    }
  }

  /** Python's `int(text)` on decimal text: surrounding white space is ignored,
      an optional sign is allowed, and at least one digit must follow.
      `None` stands for the `ValueError` the conversion raises otherwise. */
  function ParseInt(text: string): Option<int> {
    var s := Strip(text);
    if |s| > 0 && (s[0] == '+' || s[0] == '-') then
      var digits := s[1..];
      if |digits| > 0 && AllDigits(digits) then
        Some(if s[0] == '-' then -(DigitsValue(digits) as int) else DigitsValue(digits))
      else None
    else if |s| > 0 && AllDigits(s) then Some(DigitsValue(s))
    else None
  }

  /** `int()` reads back the decimal text of every natural number. */
  lemma ParseIntOfNat(n: nat)
    ensures ParseInt(NatToString(n)) == Some(n)
  {
    var s := NatToString(n);
    assert IsDigit(s[0]) && IsDigit(s[|s| - 1]);
    TrimmedIsFixpoint(s);
    assert Strip(s) == s;
    assert s[0] != '+' && s[0] != '-';
    NatToStringValue(n);
  }
}

=== FILE: travel.dfy ===
/** One train connection as the schedule source reports it, and the
    `TravelInformation` record built from it. */
module Travel {
  import opened Wrappers
  import opened Text
  import opened Clock

  /** The exceptions that escape a gathering run. */
  datatype GatherError =
    | MissingProducts    // KeyError: a connection record without "products"
    | MalformedTime      // ValueError: a departure or arrival that is not "%H:%M"
    | NoGroups           // IndexError: a matching expression with no groups to fall back to
    | NoDestinationText  // AttributeError: the fallback group did not take part in the match

  datatype RawDelay = RawDelay(delayDeparture: Option<int>, delayArrival: Option<int>)

  /** A raw connection record; `None` marks a key the record does not have. */
  datatype RawConnection = RawConnection(
    departure: Option<string>,
    arrival: Option<string>,
    ontime: Option<bool>,
    transfers: Option<int>,
    time: Option<string>,
    price: Option<string>,
    products: Option<seq<string>>,
    delay: Option<RawDelay>,
    canceled: Option<bool>,
    details: Option<string>)

  /** A connection bound to the instant the search was made for. `transfers`
      and `detailsUrl` are `None` when the record lacks them. */
  datatype TravelInformation = TravelInformation(
    referenceTime: Instant,
    departure: string,
    arrival: string,
    ontime: bool,
    transfers: Option<int>,
    time: string,
    products: seq<string>,
    price: Option<string>,
    departureDelay: int,
    arrivalDelay: int,
    canceled: bool,
    detailsUrl: Option<string>)

  const NoTime: string := "00:00"

  /** `TravelInformation.from_dict`: every key but "products" has a default. */
  function FromDict(reference: Instant, raw: RawConnection): (r: Result<TravelInformation, GatherError>)
    ensures r.Failure? <==> raw.products.None?
    ensures r.Failure? ==> r.error == MissingProducts
    ensures r.Success? ==> r.value.referenceTime == reference && r.value.products == raw.products.value
  {
    if raw.products.None? then Failure(MissingProducts)
    else
      var delay := raw.delay.GetOr(RawDelay(None, None));
      Success(TravelInformation(
        reference,
        raw.departure.GetOr(NoTime),
        raw.arrival.GetOr(NoTime),
        raw.ontime.GetOr(true),
        raw.transfers,
        raw.time.GetOr(NoTime),
        raw.products.value,
        raw.price,
        delay.delayDeparture.GetOr(0),
        delay.delayArrival.GetOr(0),
        raw.canceled.GetOr(false),
        raw.details))
  }

  /** The record a connection would be reported as, every key present. */
  function ToRaw(t: TravelInformation): RawConnection {
    RawConnection(Some(t.departure), Some(t.arrival), Some(t.ontime), t.transfers, Some(t.time), t.price,
      Some(t.products), Some(RawDelay(Some(t.departureDelay), Some(t.arrivalDelay))), Some(t.canceled), t.detailsUrl)
  }

  /** Reading a fully populated record gives the connection back. */
  lemma FromDictToRaw(t: TravelInformation)
    ensures FromDict(t.referenceTime, ToRaw(t)) == Success(t)
  {
  }

  /** A record holding nothing but its products reads with every default. */
  lemma FromDictDefaults(reference: Instant, products: seq<string>)
    ensures var r := FromDict(reference, RawConnection(None, None, None, None, None, None, Some(products), None, None, None));
      && r.Success?
      && r.value.departure == "00:00" && r.value.arrival == "00:00" && r.value.time == "00:00"
      && r.value.ontime && !r.value.canceled
      && r.value.departureDelay == 0 && r.value.arrivalDelay == 0
      && r.value.transfers.None? && r.value.price.None? && r.value.detailsUrl.None?
  {
  }

  /** `TravelInformation.time_timedelta` in minutes: the text before the first
      ":" is the hours, the text after it (if any) the minutes, each read with
      `int()`; `None` is the `ValueError` raised when either does not read. */
  function TimeTimedelta(t: TravelInformation): (r: Option<int>)
    ensures r.Some? <==>
      && ParseInt(Split(t.time, ':')[0]).Some?
      && (|Split(t.time, ':')| > 1 ==> ParseInt(Split(t.time, ':')[1]).Some?)
    ensures r.Some? && |Split(t.time, ':')| == 1 ==> r.value == 60 * ParseInt(t.time).value
  {
    var parts := Split(t.time, ':');
    var hours := ParseInt(parts[0]);
    var minutes := if |parts| > 1 then ParseInt(parts[1]) else Some(0);
    if hours.Some? && minutes.Some? then Some(hours.value * 60 + minutes.value) else None
  }

  /** The "H:MM" text of a duration in minutes. */
  function FormatDuration(minutes: nat): string {
    NatToString(minutes / 60) + ":" + TwoDigits(minutes % 60)
  }

  lemma ParseIntTwoDigits(n: nat)
    requires n < 100
    ensures ParseInt(TwoDigits(n)) == Some(n)
  {
    var s := TwoDigits(n);
    TrimmedIsFixpoint(s);
    assert Strip(s) == s && s[0] != '+' && s[0] != '-';
    assert s[..1][..0] == [];
    assert DigitsValue(s[..1]) == DigitValue(s[0]);
    assert DigitsValue(s) == DigitValue(s[0]) * 10 + DigitValue(s[1]);
  }

  lemma NoColonInDigits(s: string)
    requires AllDigits(s)
    ensures ':' !in s
  {
  }

  lemma TimeTimedeltaOfParts(t: TravelInformation, h: string, m: string, hours: int, minutes: int)
    requires Split(t.time, ':') == [h, m]
    requires ParseInt(h) == Some(hours) && ParseInt(m) == Some(minutes)
    ensures TimeTimedelta(t) == Some(hours * 60 + minutes)
  {
    var parts := Split(t.time, ':');
    assert |parts| == 2 && parts[0] == h && parts[1] == m;
    var hs := ParseInt(parts[0]);
    var ms := ParseInt(parts[1]);
    assert hs == Some(hours) && ms == Some(minutes);
  }

  /** A duration written as "H:MM" reads back as the number of minutes. */
  lemma TimeTimedeltaOfFormat(t: TravelInformation, minutes: nat)
    requires t.time == FormatDuration(minutes)
    ensures TimeTimedelta(t) == Some(minutes)
  {
    var h := NatToString(minutes / 60);
    var m := TwoDigits(minutes % 60);
    assert Split(t.time, ':') == [h, m] by {
      NoColonInDigits(h);
      NoColonInDigits(m);
      assert [h, m][1..] == [m];
      assert Join([h, m], ':') == t.time;
      SplitJoin([h, m], ':');
    }
    assert ParseInt(h) == Some(minutes / 60) by {
      ParseIntOfNat(minutes / 60);
    }
    assert ParseInt(m) == Some(minutes % 60) by {
      ParseIntTwoDigits(minutes % 60);
    }
    TimeTimedeltaOfParts(t, h, m, minutes / 60, minutes % 60);
  }

  /** A bare hour count "H" is read as whole hours. */
  lemma TimeTimedeltaOfHours(t: TravelInformation, hours: nat)
    requires t.time == NatToString(hours)
    ensures TimeTimedelta(t) == Some(hours * 60)
  {
    NoColonInDigits(t.time);
    SplitNoSeparator(t.time, ':');
    ParseIntOfNat(hours);
  }

  /** `departure_dt`: the departure resolved against the reference time, as
      `_normalize_time_string` is written. */
  function DepartureDt(t: TravelInformation, now: Instant): (r: Option<Instant>)
    ensures r.Some? <==> ParseClock(t.departure).Some?
    ensures r.Some? ==> r.value.minute == ParseClock(t.departure).value && r.value.micro == 0
    ensures r.Some? ==> r.value.day == t.referenceTime.day || r.value.day == t.referenceTime.day + 1
  {
    NormalizeAsWritten(t.referenceTime, now, t.departure)
  }

  /** `arrival_dt`: the arrival resolved the same way. */
  function ArrivalDt(t: TravelInformation, now: Instant): (r: Option<Instant>)
    ensures r.Some? <==> ParseClock(t.arrival).Some?
    ensures r.Some? ==> r.value.minute == ParseClock(t.arrival).value && r.value.micro == 0
    ensures r.Some? ==> r.value.day == t.referenceTime.day || r.value.day == t.referenceTime.day + 1
  {
    NormalizeAsWritten(t.referenceTime, now, t.arrival)
  }

  /** A connection read from a record without a departure leaves at 00:00 of
      the reference day, or of the next day when the reference is later. */
  lemma DefaultDepartureResolves(t: TravelInformation, now: Instant)
    requires t.departure == NoTime
    ensures DepartureDt(t, now).Some?
    ensures DepartureDt(t, now).value.minute == 0
    ensures DepartureDt(t, now).value.day == t.referenceTime.day + (if Tolerance(t.referenceTime, now) < t.referenceTime.minute then 1 else 0)
  {
    assert NoTime[..2] == "00" && NoTime[3..] == "00";
  }
}

=== FILE: wrappers.dfy ===
/** Failure-compatible wrappers used throughout the model.
    A Python exception that escapes an operation becomes a `Failure`. */
module Wrappers {

  datatype Option<+T> = None | Some(value: T) {
    predicate IsFailure() {
      None?
    }

    function PropagateFailure<U>(): Option<U>
      requires None?
    {
      None
    }

    function Extract(): T
      requires Some?
    {
      value
    }

    function GetOr(default: T): T {
      match this
      case Some(v) => v
      case None => default
    }
  }

  datatype Result<+R, +E> = Success(value: R) | Failure(error: E) {
    predicate IsFailure() {
      Failure?
    }

    function PropagateFailure<U>(): Result<U, E>
      requires Failure?
    {
      Failure(error)
    }

    function Extract(): R
      requires Success?
    {
      value
    }
  }
}
